=== FILE: README.md ===
# Summa server: a Dafny model of its request logic

Summa's backend (`server.py`) is a small Flask service. It summarizes pasted
text, web pages and YouTube videos with Google's Gemini model, and it answers
follow-up questions about a summary. This project models the part of that
service that is ordinary, deterministic logic, and proves properties of it:

- **Caption text** (`caption_text.dfy`, module `CaptionText`). A downloaded
  WebVTT/SRT payload becomes plain text in five steps:
  - the payload is split into lines and each line is stripped;
  - blank lines, timestamps, a line starting with `NOTE` (the rest of a
    multi-line NOTE block is kept), a line that is exactly `WEBVTT` (other
    header lines are kept), cue-timing arrows and cue numbers are dropped;
  - `<…>` tags are removed from what is left;
  - the surviving lines are joined with single spaces;
  - if nothing survives, extraction fails.
- **Caption source** (`caption_source.dfy`, module `CaptionSource`). The
  decisions taken on yt-dlp's metadata:
  - the 30-minute bound;
  - manual English subtitles before automatic ones;
  - the first entry whose format is supported;
  - the error each step raises.
- **Summarizer** (`summarizer.dfy`, module `Summarizer`). The pure parts of
  `gemini_summarize`:
  - truncation to 30000 characters;
  - the length instruction, with its fallback to `M`;
  - the prompt layout;
  - removal of Markdown code fences;
  - the fallback when the answer is not JSON;
  - the bounded summary cache.

  The module also holds `format_summary_response` and the citation built by
  `generate_citation`.
- **Follow-up prompt** (`follow_up.dfy`, module `FollowUp`). The request
  checks of `/follow-up`, and the prompt built from the summary, the last four
  history turns and the question.
- **Replies and endpoints** (`replies.dfy` and `endpoints.dfy`, modules
  `Replies` and `Endpoints`). The four POST handlers:
  - their validation;
  - the order in which each one consults the outside world;
  - the reply it gives;
  - the summary cache, threaded through a run of requests.
- **Shared pieces** (`outcomes.dfy` and `strings.dfy`, modules `Outcomes` and
  `Strings`). `Option` and `Result` stand for `None` and for raised
  exceptions. The Python string operations used are modelled too: `strip`,
  `startswith`, `in`, `split` and `join`.

The outside world is given to the handlers as one `World` record of
functions:
- the Gemini calls;
- `json.loads`;
- the MD5 cache key;
- the page download together with BeautifulSoup's text extraction;
- yt-dlp's `extract_info`;
- the subtitle download;
- `urlparse(url).netloc`;
- today's date.

`None` from one of these functions means the call raised. A run of requests
(`Endpoints.HandleAll`) gives each request its own `World`, so the model may
answer a repeated prompt differently, and pages and the date may change
between requests.

Two Gemini calls are modelled slightly differently from the source:
- The summarizer model is `summarize(instruction, content)`. It stands for the
  model's answer to `Summarizer.SummaryPrompt(instruction, content)`.
- The follow-up model is `answer(context, turns, question)`. It stands for the
  answer to `FollowUp.TurnsPrompt(context, turns, question)`.

In both cases the prompt function itself is modelled and proved separately.
This keeps the long fixed prompt texts out of the handlers' proofs. It does not
change what reaches the model.

What `server.py` does not do is not modelled either:
- It has no audio-transcription fallback: a video without usable captions
  fails with the transcript error.
- It has no cap on follow-up turns: any number of follow-up requests is
  served, each quoting only the last four history entries.

The answer from the summarizer model is cleaned with the code-fence patterns
exactly as `server.py` writes them (`Summarizer.StripFencesAsWritten`), and the
handlers use that cleanup. Those patterns miss a bare code block (see
"## Findings"). The corrected cleanup (`Summarizer.StripFences`) is defined
alongside, with its round trip proved; no handler uses it. In the same way
the handlers compute the cache key as the server does, from `text + length`
(see "## Findings"); the corrected key (`Summarizer.PairedKey`) is defined and
proved alongside.

## Model

| member | source | states |
|---|---|---|
| Strings.Strip | server.py:190 | `str.strip()`: the result is an infix of the input with only whitespace before and after it; it is empty exactly when the line is all whitespace, and otherwise neither starts nor ends with whitespace |
| Strings.UnpaddedStrip | server.py:75 | a string that neither starts nor ends with whitespace is unchanged by `strip` |
| Strings.StripIgnoresTrailingSpace | server.py:218 | appending whitespace to a string does not change what `strip` keeps |
| Strings.Split | server.py:188 | `split('\n')` always yields at least one piece and no piece contains a line break |
| Strings.JoinSplit | server.py:188 | joining the pieces of `split('\n')` with `\n` restores the payload exactly |
| Strings.SplitAppend | server.py:188 | splitting two payloads glued with a line break splits each one separately |
| Strings.SplitJoin | server.py:188 | splitting a join of line-free pieces gives the pieces back |
| Strings.JoinAppend | server.py:208 | `' '.join` of two non-empty lists is their joins with exactly one space between them |
| Strings.ContainsIffOccurs | server.py:196 | the substring test `'-->' in line` holds exactly when the arrow occurs at some position of the line |
| CaptionText.StripTags | server.py:201 | `re.sub(r'<[^>]+>', '', line)` leaves no tag behind, never lengthens the line, never introduces a `>`, keeps a first character that is not `<`, and leaves a tag-free line unchanged |
| CaptionText.PlainPrefixKept | server.py:201 | text before the first `<` is kept exactly, and the rest is cleaned on its own |
| CaptionText.TagDropped | server.py:201 | a tag, from its `<` to the first `>`, is deleted and nothing after it |
| CaptionText.TagSpliced | server.py:201 | tag removal deletes exactly the tag: the text before it is kept and the text after it is cleaned in turn |
| CaptionText.NoTagPrefixKept | server.py:201 | text in which no position opens a tag is kept as it is, even when it holds a `<` that opens no tag |
| CaptionText.StripTagsIdempotent | server.py:201 | removing tags a second time changes nothing |
| CaptionText.IsTimestampLine | server.py:194 | `re.match(r'^\d{2}:\d{2}', line)`: two digits, a colon and two digits open the line |
| CaptionText.IsCueIndex | server.py:198 | `re.match(r'^\d+$', line)` on a stripped line: the line is non-empty and all digits |
| CaptionText.TimestampMatchIsPrefix | server.py:194 | `re.match` anchors only at the start: a timestamp line stays one whatever follows, and only its first five characters decide |
| CaptionText.TimestampIsNotCueIndex | server.py:194-198 | no line is both a timestamp line and a cue index |
| CaptionText.IsCueMarkup | server.py:194-198 | the metadata tests on a stripped line: a timestamp at the start, a line starting with `NOTE`, a line that is exactly `WEBVTT`, a line containing `-->`, or a line of digits only |
| CaptionText.CleanLine | server.py:190-203 | a line is skipped exactly when, once stripped, it is blank, cue markup (timestamp, `NOTE`, `WEBVTT`, `-->`, all digits), or only tags; a kept line is non-empty, tag-free, and the stripped line with its tags removed |
| CaptionText.FilterMapAppend | server.py:189-203 | the filter decides each line on its own: filtering a concatenation filters each half |
| CaptionText.ParseCaptionLines | server.py:187-203 | the collected parts are no more than the lines, and each one is non-empty and tag-free |
| CaptionText.KeptLinesAreClean | server.py:200-203 | every part the loop appends is non-empty and free of tags |
| CaptionText.ParseAppend | server.py:189-203 | the line filter preserves order: parsing two runs of lines gives their parts in sequence |
| CaptionText.SkippedLine | server.py:191-199 | a skipped line contributes nothing, wherever it stands |
| CaptionText.KeptLine | server.py:200-203 | a kept line contributes exactly its cleaned text, at its own position |
| CaptionText.ParseEmptyIff | server.py:189-205 | no part is collected exactly when every line is skipped |
| CaptionText.ExtractCaptionText | server.py:186-208 | extraction fails only with the no-extractable-text error; its text is non-empty and no longer than the payload |
| CaptionText.JoinParts | server.py:205-208 | the no-extractable-text error exactly when there are no parts; otherwise the parts joined with single spaces, which splitting at spaces gives back when no part holds a space |
| CaptionText.JoinSplitsBack | server.py:208 | `' '.join` of non-empty, space-free parts is undone by splitting at spaces |
| CaptionText.JoinPartsAppend | server.py:208 | joined parts of two lists are glued with a single space, and an empty list adds nothing |
| CaptionText.JoinLength | server.py:188-208 | the joined text is non-empty and no longer than the payload: each part is no longer than its line, and each space stands for a line break |
| CaptionText.JoinedLength | server.py:208 | a join adds exactly one separator between consecutive parts |
| CaptionText.ParsedLength | server.py:189-203 | the kept parts are jointly no longer than their lines, and have some text when there is one |
| CaptionText.ExtractFailsIffNothingParsed | server.py:205-208 | extraction fails exactly when no part is collected |
| CaptionText.ExtractFailsIffAllSkipped | server.py:188-206 | extraction fails exactly when every line of the payload is skipped |
| CaptionText.ExtractLine | server.py:188-208 | a one-line payload gives that line's cleaned text, or the no-extractable-text error when the line is skipped |
| CaptionText.NoteLineOnlySkipped | server.py:196 | a line starting with `NOTE` is dropped on its own: the payload after it extracts as if the line were absent |
| CaptionText.ExtractConcat | server.py:188-208 | two payloads glued with a line break give their texts glued with one space; a payload with no text leaves the other's result unchanged |
| CaptionSource.CheckDuration | server.py:154-157 | a video fails exactly when it reports a duration over 1800 seconds, and the error reports whole minutes (at least 30); a missing duration passes |
| CaptionSource.ChooseTrack | server.py:159-164 | manual `en` subtitles whenever that key is present, automatic `en` captions only when it is not, and no track exactly when neither is present |
| CaptionSource.FirstSupported | server.py:170-174 | the first entry in list order whose `ext` is `vtt`, `srv1`, `srv2`, `srv3` or `json3`; none exactly when no entry is supported |
| CaptionSource.SelectCaptionUrl | server.py:154-177 | an over-long video fails on its duration; without an English track it fails with no-captions; a selected URL is non-empty and is the URL of the first supported entry of the chosen track |
| CaptionSource.FetchTranscript | server.py:148-208 | an extraction failure, a selection error or a failed download is reported as such; otherwise the result is the text extracted from the downloaded payload |
| CaptionSource.DurationCheckedFirst | server.py:154-167 | the duration gate comes first: an over-long video gets the same too-long error whatever captions it has |
| CaptionSource.DurationBoundary | server.py:155-156 | 1800 seconds passes, 1801 seconds fails as 30 minutes, and a missing duration passes |
| CaptionSource.ManualSubtitlesWin | server.py:161-164 | while manual `en` subtitles are present, automatic captions have no influence on the outcome |
| CaptionSource.EmptyManualTrackFails | server.py:161-167 | an empty manual `en` list fails with no-captions; it does not fall back to automatic captions |
| CaptionSource.AutomaticCaptionsAsFallback | server.py:163-164 | without manual `en` subtitles, automatic `en` captions are treated exactly as manual ones would be |
| CaptionSource.NoFetchWithoutUrl | server.py:166-181 | when selection fails, the subtitle download is never consulted |
| CaptionSource.FetchesOnlySelectedUrl | server.py:176-182 | only the selected URL is downloaded: two downloaders that agree on it give the same transcript |
| CaptionSource.FirstSupportedEntryDecides | server.py:170-177 | the first supported entry decides: its URL if it has one, otherwise an error, even when a later entry has a URL |
| CaptionSource.NoSupportedFormat | server.py:170-177 | a track with no supported format yields the no-subtitle-URL error |
| Summarizer.Truncate | server.py:67-68 | input of up to 30000 characters is unchanged; longer input becomes its first 30000 characters followed by `...` |
| Summarizer.TruncateIdempotent | server.py:67-68 | truncating twice is truncating once |
| Summarizer.TruncateIgnoresTail | server.py:67-68 | characters past the first 30000 never reach the model |
| Summarizer.LengthInstruction | server.py:32-37 | a known length key gets its own instruction and any other key gets the `M` instruction |
| Summarizer.MediumIsTheDefault | server.py:70 | a key gets the medium instruction exactly when it is not `S`, `L` or `XL` |
| Summarizer.SummaryPrompt | server.py:71 | the prompt starts with the system prompt, contains the length instruction, and ends with the content to summarize |
| Summarizer.PromptLayout | server.py:71 | a prompt laid out this way starts with its system text, contains the length instruction, and ends with the content |
| Summarizer.DropTrailingFence | server.py:80 | `re.sub(r'\n?```$', '', s)` never lengthens the answer and leaves an answer that does not end in a fence unchanged |
| Summarizer.DropLeadingFenceAsWritten | server.py:79 | `re.sub(r'^```json?\n?', '', s)` removes nothing unless the answer starts with a fence followed by `jso` |
| Summarizer.StripFencesAsWritten | server.py:78-80 | the cleanup as written leaves an answer that does not start with a fence unchanged |
| Summarizer.BareFenceSurvivesAsWritten | server.py:78-80 | the cleanup as written keeps the opening fence of a bare code block |
| Summarizer.DropLeadingFence | server.py:79 | the corrected pattern `^```(json)?\n?`, not the one written at this line: the opening fence with an optional `json` tag and line break is removed; other answers are unchanged |
| Summarizer.StripFences | server.py:78-80 | the corrected cleanup, not the one written at these lines: an answer starting with a fence is shortened by at least the fence; any other answer is unchanged |
| Summarizer.FenceRoundTrip | server.py:77-80 | under the corrected cleanup, a code block, bare or tagged `json`, is unwrapped to exactly its body |
| Summarizer.LeadingFenceDropped | server.py:79 | under the corrected pattern, the opening fence, its tag and its line break are removed and nothing more |
| Summarizer.TrailingFenceDropped | server.py:80 | the closing fence and the line break before it are removed and nothing more |
| Summarizer.AsWrittenAgreesOnJsonFence | server.py:79 | on a block tagged `json`, the cleanup as written and the corrected one agree |
| Summarizer.CacheStore | server.py:85-86 | a full cache (100 entries) is left unchanged, otherwise the key is bound to the value; no other entry changes and the size bound is kept |
| Summarizer.FallbackSummary | server.py:89-95 | an answer `json.loads` rejects becomes the summary itself, under the heading `Summary`, with no highlights |
| Summarizer.SummarizeKeyed | server.py:63-97 | once the key is computed: a cached key returns the stored data with the cache unchanged; otherwise: a failed model call is an error; the answer is stripped and cleaned with the fence patterns as written; a cleaned answer that is not JSON is returned as the fallback and not cached; parsed data is returned and stored through `CacheStore`; the cache never loses or changes an entry and stays within 100 |
| Summarizer.GeminiSummarize | server.py:60-97 | the same, with the key digest taken of `text + length` as the server computes it |
| Summarizer.KeyCollisionServesOtherSummary | server.py:62-64 | once the summary of text `t + x` at length `l` is cached, text `t` at length `x + l` is served that summary, whatever the model would answer for it |
| Summarizer.PairedKey | server.py:62 | the corrected digest input: the length of `length` in unary, a `0`, `length`, then `text` |
| Summarizer.PairedKeyRoundTrip | server.py:62 | the corrected digest input gives back both the text and the length |
| Summarizer.PairedKeyInjective | server.py:62 | distinct (text, length) requests get distinct corrected digest inputs, and equal ones equal inputs |
| Summarizer.GeminiSummarizePaired | server.py:60-97 | `gemini_summarize` with the corrected key: a cached key returns the stored entry, and no entry is lost or changed |
| Summarizer.PairedKeysKeepRequestsApart | server.py:62-86 | with a collision-free digest and the corrected key, after any request a different request gets the outcome it would have got from the cache as it was before |
| Summarizer.BareFenceFallsBack | server.py:75-95 | a model answer that is a bare code block around `{}` is returned as the fallback summary ```` ```\n{} ````, and the cache is unchanged |
| Summarizer.FencedAnswerUnwrapped | server.py:75-82 | under the corrected cleanup, a stripped answer that is a bare or `json`-tagged block reaches `json.loads` as exactly its body |
| Summarizer.RepeatIsServedFromCache | server.py:62-64 | when there is room, a parsed answer is cached, and asking again returns the same data and cache without consulting the model |
| Summarizer.ModelSeesOnlyThePrompt | server.py:66-74 | the call depends on the model only through its answer for the truncated text and the length instruction |
| Summarizer.FormatSummaryResponse | server.py:99-105 | each field is the model's value when present, else `Summary`, the empty summary, or no highlights |
| Summarizer.FallbackIsShownVerbatim | server.py:89-95 | an answer that is not JSON is shown as is under the heading `Summary` with no highlights |
| Summarizer.NewlinesToSpaces | server.py:112 | `replace('\n', ' ')`: same length, every line break becomes a space, every other character is kept |
| Summarizer.CitationSnippet | server.py:112 | the snippet is the summary's first 50 characters (or all of it) with line breaks turned into spaces, followed by `...`, and holds no line break |
| Summarizer.Citation | server.py:113 | the citation is the quoted snippet, then the domain, then the access date and `Web.`: each of the three parts is pinned at its position |
| FollowUp.RecentHistory | server.py:313 | `history[-4:]`: the last four entries in their order, or all entries when there are fewer |
| FollowUp.OlderHistoryIgnored | server.py:313 | entries before the last four never affect the window |
| FollowUp.NewTurnSlidesWindow | server.py:313 | a new turn pushes the oldest quoted turn out of a full window |
| FollowUp.RoleLabel | server.py:314 | the label is `User` exactly when the role is `user`, and `Assistant` for every other role |
| FollowUp.HistoryLines | server.py:313-315 | the quoted history has at least one character per turn |
| FollowUp.HistoryLinesAppend | server.py:313-315 | quoting two runs of turns quotes each in sequence |
| FollowUp.HistoryLinesSplit | server.py:313-315 | with line-free turn texts, the quoted history reads back as one `Label: content` line per turn, in order |
| FollowUp.SingleLine | server.py:315 | a turn whose text has no line break is quoted on a single line |
| FollowUp.TurnsPrompt | server.py:306-317 | the prompt opens with the fixed introduction and the summary, contains the quoted turns, and ends with `\nUser: <question>\nAssistant:` |
| FollowUp.FollowUpPrompt | server.py:306-317 | the prompt for a conversation opens with the summary, quotes its last four turns, and ends with the question and the answer cue |
| FollowUp.SameWindowSamePrompt | server.py:313-317 | conversations that end in the same four turns get the same prompt |
| FollowUp.ShortHistoryQuotedWhole | server.py:313-315 | a history of at most four turns is quoted whole |
| FollowUp.CheckRequest | server.py:299-303 | an empty question is rejected first; otherwise an empty context is rejected; the request passes exactly when both are non-empty |
| Replies.RejectionMessage | server.py:219-303 | the error text of each 400 rejection, as the five handlers return it |
| Replies.RejectionMessagesDistinct | server.py:219-303 | the five rejection messages are pairwise different, so the message identifies the rejection |
| Replies.Status | server.py:218-235 | a success is 200, a rejected request 400, and a failure while serving 500 |
| Endpoints.CitationFor | server.py:107-115 | the citation is empty when the URL cannot be parsed, otherwise it is built from the URL's domain and today's date |
| Endpoints.SummarizeStep | server.py:221-222 | the summary step replies with the formatted data, plus a citation for a cited source, or fails when `gemini_summarize` fails; it never rejects and keeps the cache discipline |
| Endpoints.SummarizeText | server.py:212-235 | `/summarize` rejects text exactly when its stripped form has fewer than 20 characters, leaving the cache unchanged; otherwise it summarizes the unstripped text with the given length key, `M` by default |
| Endpoints.PageText | server.py:133-135 | page text is accepted exactly when it exists and has at least 100 characters |
| Endpoints.SummarizeUrl | server.py:237-262 | `/summarize-url` rejects exactly a missing or empty URL; a page without 100 characters of text is a server error with the cache unchanged; otherwise the page text is summarized and the URL cited |
| Endpoints.LooksLikeYouTube | server.py:270 | a URL is accepted exactly when it contains `youtube.com` or `youtu.be` |
| Endpoints.YouTubeMentionKept | server.py:270 | the test is a substring test: any text before or after an accepted URL keeps it accepted |
| Strings.ContainsWidened | server.py:270 | `t in s` stays true when text is added before and after `s` |
| Endpoints.SummarizeYouTube | server.py:264-290 | `/summarize-youtube` rejects exactly a URL containing neither `youtube.com` nor `youtu.be`; a failed transcript is a server error with the cache unchanged; otherwise the transcript is summarized and the URL cited |
| Endpoints.AskFollowUp | server.py:292-325 | `/follow-up` rejects an empty question, then an empty context; otherwise it replies with the model's answer for the context, the last four turns and the question, or fails when the model fails |
| Endpoints.Handle | server.py:212-325 | whichever route is called, the cache stays within 100 entries, no entry is evicted or changed, and a request that does not succeed leaves the cache as it was |
| Endpoints.HandleAll | server.py:58 | a run of requests against the one process-wide cache, each request meeting the outside world as it is at that request, gets one reply per request, the first being the first request's own reply |
| Endpoints.HandleAllAppend | server.py:58 | serving a run in two parts serves the second part from the cache the first part left, and the replies are the two parts' replies in order |
| Endpoints.CacheInvariant | server.py:58-86 | over any run of requests, whatever the model answers, the pages hold and the date is at each request, the cache never holds more than 100 entries and an entry, once cached, keeps its value; there is one reply per request |
| Endpoints.RejectionIgnoresWorld | server.py:218-219 | a rejected request gets the same reply and cache whatever the model, the downloads or yt-dlp would have done |
| Endpoints.OnlyRecentTurnsMatter | server.py:313-319 | history turns before the last four never change a follow-up reply |
| Endpoints.PaddingKeepsAcceptance | server.py:218-221 | trailing whitespace never changes whether `/summarize` accepts a text |

## Left out

- Flask routing, `jsonify`, CORS and `app.run`. These are framework plumbing. Replies are a datatype carrying the status code's meaning and the JSON body's fields.
- The `metadata` object of each reply (`input_length`, `word_count`, `timestamp`, `model`, `source`, `video_url`) is not modelled. It is reporting around the logic, and `time.time()` is a clock.
- The text of 500 errors (`str(e)`) is not modelled: a failure is one `ServerError` value. The messages of 400 rejections are modelled exactly.
- `requests.get` and BeautifulSoup's `get_text` are one input function giving the page's visible text. `fetch_url_text`'s own check on that text (at least 100 characters) is modelled.
- yt-dlp's `extract_info` is one input function giving the metadata record, or `None` when it raises. The subtitle download is another input function.
- The Gemini calls are input functions, and so are `json.loads`, the MD5 cache key, `urlparse(url).netloc` and `datetime.now()`. They are network or library behaviour.
- The process-wide `_summary_cache` global is passed in and returned explicitly by each handler. Concurrent requests are not modelled.
- Strings.IsSpace: whitespace is the six characters space, tab, line feed, carriage return, vertical tab and form feed. Python's `str.strip` also removes the ASCII separators `\x1c`-`\x1f` and non-ASCII whitespace; those are not modelled.
- Strings.IsDigit: the regex class `\d` is ASCII `0`-`9`. Python's `\d` also matches non-ASCII digits; those are not modelled.
- The model assumes request fields and history entries have the expected shape:
  - a JSON body that is missing or not an object (`request.get_json()` returning `None`) is not modelled;
  - history entries without `role` or `content` keys, which raise `KeyError` (a 500), are not modelled;
  - fields of the wrong JSON type are not modelled.
- A Gemini answer that is valid JSON but not an object (a list, a number) would make `format_summary_response` raise. The model assumes parsed data is an object with optional `heading`, `summary` and `highlights` fields.
- Endpoints.Handle: "a request that does not succeed leaves the cache as it was" does not hold for such an answer in the server. server.py:85-86 caches the parsed value before `format_summary_response` raises at server.py:102, so the request is a 500 that has changed the cache, and every later identical request fails from the cache. The model, which only has object-shaped data, does not cover this case.
- CaptionSource.CheckDuration: the duration is an integer number of seconds. yt-dlp may report a float, and a `None` value would make the comparison raise; neither case is modelled.
- A `subtitles` or `automatic_captions` key holding `None` (rather than missing) would raise in the `in` test; the model treats it as missing.
- FollowUp.HistoryLines: its own contract only bounds the length of the quoted history. Its content is stated by FollowUp.HistoryLinesSplit and FollowUp.HistoryLinesAppend.
- The `/health` endpoint returns a constant and is not modelled.
- The test scripts are not part of this model. They are live-server, network, FFmpeg and GPU smoke scripts with no logic of their own.
- `json3`, `srv1`, `srv2` and `srv3` payloads are modelled as the server treats them: run through the same line filter as WebVTT.

## Findings

| source | as written | input that shows it | evidently intended | confidence | as-written member | corrected member |
|---|---|---|---|---|---|---|
| server.py:79 | The pattern `^```json?\n?` makes only the final `n` optional. It therefore requires the letters `jso` after the opening fence, so a bare code block keeps its opening fence. `json.loads` then fails, and the fallback shows the fenced text as the summary. | the model's answer ```` ```\n{}\n``` ```` is cleaned to ```` ```\n{} ```` | the whole `json` tag is optional, `^```(json)?\n?`, so a bare block is unwrapped to its body like a tagged one | medium, not executed | Summarizer.BareFenceFallsBack | Summarizer.FencedAnswerUnwrapped |
| server.py:62 | The cache key is the MD5 digest of `text + length`, so the boundary between text and length is lost. | text `t + "X"` at length `L`, then text `t` at length `XL`: both keys digest `t + "XL"`, and the second request is served the first's summary | requests that differ in text or in length get different cache entries, for example by digesting the two fields kept apart | medium, not executed | Summarizer.KeyCollisionServesOtherSummary | Summarizer.PairedKeysKeepRequestsApart |

=== FILE: caption_source.dfy ===
/** The decisions `fetch_youtube_transcript` (server.py) takes on the metadata
    yt-dlp reports for a video: the duration bound, manual-before-automatic
    English captions, and the first subtitle entry in a supported format.
    yt-dlp itself and the HTTP download are inputs here: the metadata is a
    value, the download a function from URL to payload. */
module CaptionSource {
  import opened Outcomes
  import opened Strings
  import opened CaptionText

  /** One entry of a caption track: its `ext` and `url` keys, either may be missing. */
  datatype SubtitleEntry = SubtitleEntry(ext: Option<string>, url: Option<string>)

  /** The part of yt-dlp's `info` dictionary the server reads. A missing
      `subtitles` or `automatic_captions` key is `None`; each present one maps a
      language code to that language's list of entries. */
  datatype VideoInfo = VideoInfo(
    duration: Option<int>,
    subtitles: Option<map<string, seq<SubtitleEntry>>>,
    automaticCaptions: Option<map<string, seq<SubtitleEntry>>>)

  /** Longest video accepted, in seconds (30 minutes). */
  const MaxDurationSeconds := 1800

  /** The caption language requested from yt-dlp. */
  const Language := "en"

  /** Subtitle formats the server is willing to download. */
  const SupportedFormats: set<string> := {"vtt", "srv1", "srv2", "srv3", "json3"}

  /** `info.get('duration', 0)`. */
  function Duration(info: VideoInfo): int {
    info.duration.GetOr(0)
  }

  /** The duration gate: a video longer than 1800 seconds fails, reporting its
      length in whole minutes; exactly 1800 seconds, or no reported duration, passes. */
  function CheckDuration(info: VideoInfo): (r: Result<(), TranscriptError>)
    ensures r.Err? <==> info.duration.Some? && info.duration.value > MaxDurationSeconds
    ensures r.Err? ==> r.error == TooLong(info.duration.value / 60) && r.error.minutes >= 30
  {
    var d := Duration(info);
    if d > MaxDurationSeconds then Err(TooLong(d / 60)) else Ok(())
  }

  /** `'en'` is a key of the (possibly missing) track dictionary. */
  predicate HasLanguage(tracks: Option<map<string, seq<SubtitleEntry>>>) {
    tracks.Some? && Language in tracks.value
  }

  /** The caption track to use: manual `en` subtitles whenever that key is
      present, automatic `en` captions only when it is not, otherwise none. */
  function ChooseTrack(info: VideoInfo): (r: Option<seq<SubtitleEntry>>)
    ensures HasLanguage(info.subtitles) ==> r == Some(info.subtitles.value[Language])
    ensures !HasLanguage(info.subtitles) && HasLanguage(info.automaticCaptions) ==>
      r == Some(info.automaticCaptions.value[Language])
    ensures r.None? <==> !HasLanguage(info.subtitles) && !HasLanguage(info.automaticCaptions)
  {
    if HasLanguage(info.subtitles) then Some(info.subtitles.value[Language])
    else if HasLanguage(info.automaticCaptions) then Some(info.automaticCaptions.value[Language])
    else None
  }

  /** The entry's `ext` is one of the supported formats. */
  predicate Supported(entry: SubtitleEntry) {
    entry.ext.Some? && entry.ext.value in SupportedFormats
  }

  /** Position of the first entry, in list order, whose format is supported. */
  function FirstSupported(entries: seq<SubtitleEntry>): (r: Option<nat>)
    ensures r.Some? ==> r.value < |entries| && Supported(entries[r.value])
    ensures r.Some? ==> forall j :: 0 <= j < r.value ==> !Supported(entries[j])
    ensures r.None? <==> forall j :: 0 <= j < |entries| ==> !Supported(entries[j])
    decreases |entries|
  {
    if |entries| == 0 then None
    else if Supported(entries[0]) then Some(0)
    else
      match FirstSupported(entries[1..])
      case None =>
        assert forall j :: 1 <= j < |entries| ==> entries[j] == entries[1..][j - 1];
        None
      case Some(i) =>
        assert forall j :: 1 <= j <= i ==> entries[j] == entries[1..][j - 1];
        Some(i + 1)
  }

  /** Python's truthiness of `sub.get('url')`: present and non-empty. */
  predicate UsableUrl(url: Option<string>) {
    url.Some? && url.value != ""
  }

  /** Everything `fetch_youtube_transcript` decides before it downloads anything:
      the duration gate, then the track, then the first supported entry. The
      search stops at that entry even when its URL is missing. */
  function SelectCaptionUrl(info: VideoInfo): (r: Result<string, TranscriptError>)
    ensures Duration(info) > MaxDurationSeconds ==> r == Err(TooLong(Duration(info) / 60))
    ensures r.Ok? ==> Duration(info) <= MaxDurationSeconds && r.value != ""
    ensures ChooseTrack(info).None? && Duration(info) <= MaxDurationSeconds ==>
      r == Err(NoEnglishCaptions)
    ensures r.Ok? ==>
      var entries := ChooseTrack(info).value;
      exists i :: 0 <= i < |entries| && FirstSupported(entries) == Some(i) && entries[i].url == Some(r.value)
  {
    if CheckDuration(info).Err? then Err(CheckDuration(info).error)
    else
      match ChooseTrack(info)
      case None => Err(NoEnglishCaptions)
      case Some(entries) =>
        if entries == [] then Err(NoEnglishCaptions)
        else
          match FirstSupported(entries)
          case None => Err(NoSubtitleUrl)
          case Some(i) =>
            if UsableUrl(entries[i].url) then Ok(entries[i].url.value) else Err(NoSubtitleUrl)
  }

  /** `fetch_youtube_transcript` end to end. `info` is what yt-dlp's
      `extract_info` returned (`None` when it raised); `fetch` is the subtitle
      download (`None` when the request failed). */
  function FetchTranscript(info: Option<VideoInfo>, fetch: string -> Option<string>)
    : (r: Result<string, TranscriptError>)
    ensures info.None? ==> r == Err(ExtractorFailed)
    ensures info.Some? && SelectCaptionUrl(info.value).Err? ==> r == Err(SelectCaptionUrl(info.value).error)
    ensures info.Some? && SelectCaptionUrl(info.value).Ok? ==>
      var url := SelectCaptionUrl(info.value).value;
      && (fetch(url).None? ==> r == Err(FetchFailed))
      && (fetch(url).Some? ==> r == ExtractCaptionText(fetch(url).value))
  {
    match info
    case None => Err(ExtractorFailed)
    case Some(v) =>
      match SelectCaptionUrl(v)
      case Err(e) => Err(e)
      case Ok(url) =>
        match fetch(url)
        case None => Err(FetchFailed)
        case Some(content) => ExtractCaptionText(content)
  }

  /** The duration gate comes before caption selection: an over-long video is
      rejected the same way whatever captions it has. */
  lemma DurationCheckedFirst(info: VideoInfo, subtitles: Option<map<string, seq<SubtitleEntry>>>,
                             automatic: Option<map<string, seq<SubtitleEntry>>>)
    requires Duration(info) > MaxDurationSeconds
    ensures SelectCaptionUrl(info) == SelectCaptionUrl(info.(subtitles := subtitles, automaticCaptions := automatic))
    ensures SelectCaptionUrl(info).Err? && SelectCaptionUrl(info).error.TooLong?
  {
  }

  /** Exactly 1800 seconds passes the gate, and 1801 does not. */
  lemma DurationBoundary(info: VideoInfo)
    ensures CheckDuration(info.(duration := Some(1800))).Ok?
    ensures CheckDuration(info.(duration := Some(1801))) == Err(TooLong(30))
    ensures CheckDuration(info.(duration := None)).Ok?
  {
  }

  /** Manual `en` subtitles take strict precedence: while they are present,
      automatic captions have no influence on the outcome. */
  lemma ManualSubtitlesWin(info: VideoInfo, automatic: Option<map<string, seq<SubtitleEntry>>>)
    requires HasLanguage(info.subtitles)
    ensures SelectCaptionUrl(info) == SelectCaptionUrl(info.(automaticCaptions := automatic))
  {
  }

  /** An empty manual `en` list is an error; it does not fall back to automatic captions. */
  lemma EmptyManualTrackFails(info: VideoInfo)
    requires Duration(info) <= MaxDurationSeconds
    requires HasLanguage(info.subtitles) && info.subtitles.value[Language] == []
    ensures SelectCaptionUrl(info) == Err(NoEnglishCaptions)
  {
  }

  /** Automatic captions decide the outcome only when manual `en` subtitles are absent. */
  lemma AutomaticCaptionsAsFallback(info: VideoInfo)
    requires !HasLanguage(info.subtitles) && HasLanguage(info.automaticCaptions)
    ensures SelectCaptionUrl(info) == SelectCaptionUrl(info.(subtitles := Some(map[Language := info.automaticCaptions.value[Language]])))
  {
  }

  /** When no URL is selected, the download is never consulted: the outcome is
      the same whatever `fetch` would have returned. */
  lemma NoFetchWithoutUrl(info: VideoInfo, fetch1: string -> Option<string>, fetch2: string -> Option<string>)
    requires SelectCaptionUrl(info).Err?
    ensures FetchTranscript(Some(info), fetch1) == FetchTranscript(Some(info), fetch2)
  {
  }

  /** Only the selected URL is downloaded: two downloaders that agree on it
      give the same transcript. */
  lemma FetchesOnlySelectedUrl(info: VideoInfo, fetch1: string -> Option<string>, fetch2: string -> Option<string>)
    requires SelectCaptionUrl(info).Ok?
    requires fetch1(SelectCaptionUrl(info).value) == fetch2(SelectCaptionUrl(info).value)
    ensures FetchTranscript(Some(info), fetch1) == FetchTranscript(Some(info), fetch2)
  {
  }

  /** The first supported entry decides, even when a later entry would have a URL:
      the search does not continue past it. */
  lemma FirstSupportedEntryDecides(info: VideoInfo, i: nat)
    requires Duration(info) <= MaxDurationSeconds
    requires ChooseTrack(info).Some?
    requires FirstSupported(ChooseTrack(info).value) == Some(i)
    ensures !UsableUrl(ChooseTrack(info).value[i].url) ==> SelectCaptionUrl(info) == Err(NoSubtitleUrl)
    ensures UsableUrl(ChooseTrack(info).value[i].url) ==>
      SelectCaptionUrl(info) == Ok(ChooseTrack(info).value[i].url.value)
  {
  }

  /** A track without any supported format yields no URL. */
  lemma NoSupportedFormat(info: VideoInfo)
    requires Duration(info) <= MaxDurationSeconds
    requires ChooseTrack(info).Some? && ChooseTrack(info).value != []
    requires forall j :: 0 <= j < |ChooseTrack(info).value| ==> !Supported(ChooseTrack(info).value[j])
    ensures SelectCaptionUrl(info) == Err(NoSubtitleUrl)
  {
  }
}

=== FILE: caption_text.dfy ===
/** Turning a fetched WebVTT/SRT caption payload into plain spoken text:
    the line filter at the end of `fetch_youtube_transcript` (server.py). */
module CaptionText {
  import opened Outcomes
  import opened Strings

  /** The ways fetching a YouTube transcript can fail, one per `raise` in
      `fetch_youtube_transcript`. Declared here rather than beside the caption
      selection that raises the first five, because `CaptionSource` imports this
      module and the text extraction raises the last. */
  datatype TranscriptError =
    | ExtractorFailed          // yt-dlp could not read the video's metadata
    | TooLong(minutes: int)    // the video runs longer than 30 minutes
    | NoEnglishCaptions        // neither manual nor automatic `en` captions
    | NoSubtitleUrl            // no usable subtitle URL in the chosen track
    | FetchFailed              // the subtitle download failed
    | NoExtractableText        // every caption line was markup

  /** The regular expression `^\d{2}:\d{2}`: the line opens with a cue timestamp. */
  predicate IsTimestampLine(line: string) {
    |line| >= 5 && IsDigit(line[0]) && IsDigit(line[1]) && line[2] == ':'
    && IsDigit(line[3]) && IsDigit(line[4])
  }

  /** The regular expression `^\d+$`: a numeric cue index. */
  predicate IsCueIndex(line: string) {
    |line| > 0 && forall i :: 0 <= i < |line| ==> IsDigit(line[i])
  }

  /** `re.match` anchors only at the start: what follows the first five
      characters never decides whether a line is a timestamp line. */
  lemma TimestampMatchIsPrefix(line: string, rest: string)
    ensures IsTimestampLine(line) ==> IsTimestampLine(line + rest)
    ensures |line| >= 5 ==> (IsTimestampLine(line) <==> IsTimestampLine(line[..5]))
  {
  }

  /** The two numeric patterns never overlap: a timestamp line has a colon,
      a cue index has only digits. */
  lemma TimestampIsNotCueIndex(line: string)
    ensures IsTimestampLine(line) ==> !IsCueIndex(line)
  {
    if IsTimestampLine(line) {
      assert !IsDigit(line[2]);
    }
  }

  /** A stripped line the parser skips as caption metadata: a timestamp, a
      line starting with `NOTE` (the rest of a multi-line NOTE block is kept),
      a line that is exactly `WEBVTT` (other header lines are kept), a
      cue-timing arrow or a cue number. */
  predicate IsCueMarkup(line: string) {
    || IsTimestampLine(line)
    || StartsWith(line, "NOTE")
    || line == "WEBVTT"
    || Contains(line, "-->")
    || IsCueIndex(line)
  }

  /** The regular expression `<[^>]+>` matches at the start of `s`: an opening
      bracket, at least one character that is not `>`, then a `>`. */
  predicate OpensTag(s: string) {
    |s| >= 2 && s[0] == '<' && s[1] != '>' && '>' in s
  }

  /** No position of `s` starts a match of `<[^>]+>`. */
  predicate NoTag(s: string)
    decreases |s|
  {
    |s| == 0 || (!OpensTag(s) && NoTag(s[1..]))
  }

  /** `re.sub(r'<[^>]+>', '', s)`: scanning left to right, every tag (up to the
      first `>` after its `<`) is deleted and every other character is kept. The
      result contains no tag, and a string without tags is returned unchanged. */
  function StripTags(s: string): (r: string)
    ensures |r| <= |s|
    ensures '>' !in s ==> '>' !in r
    ensures |s| > 0 && s[0] != '<' ==> |r| > 0 && r[0] == s[0]
    ensures NoTag(r)
    ensures NoTag(s) ==> r == s
    decreases |s|
  {
    if |s| == 0 then s
    else if OpensTag(s) then
      var j := IndexOf(s, '>');
      StripTags(s[j + 1..])
    else
      var t := StripTags(s[1..]);
      var r := [s[0]] + t;
      assert r[1..] == t;
      assert '>' !in s ==> '>' !in r by {
        if '>' !in s {
          assert '>' !in s[1..];
        }
      }
      assert !OpensTag(r) by {
        if |s| >= 2 && s[0] == '<' && s[1] != '>' {
          assert '>' !in s;
          assert '>' !in s[1..];
          assert '>' !in t;
        }
      }
      r
  }

  /** Text before the first `<` is kept as it is. */
  lemma {:induction false} PlainPrefixKept(a: string, b: string)
    requires '<' !in a
    ensures StripTags(a + b) == a + StripTags(b)
    decreases |a|
  {
    if |a| == 0 {
      assert a + b == b;
    } else {
      var s := a + b;
      assert s[0] == a[0] && !OpensTag(s);
      assert s[1..] == a[1..] + b;
      assert StripTags(s) == [s[0]] + StripTags(s[1..]);
      PlainPrefixKept(a[1..], b);
      ConsAppend(a, StripTags(b));
    }
  }

  /** Text in which no position opens a tag is kept as it is, even when it
      holds a `<`. */
  lemma {:induction false} NoTagPrefixKept(a: string, b: string)
    requires forall i :: 0 <= i < |a| ==> !OpensTag((a + b)[i..])
    ensures StripTags(a + b) == a + StripTags(b)
    decreases |a|
  {
    if |a| == 0 {
      assert a + b == b;
    } else {
      var s := a + b;
      assert s[0..] == s;
      assert !OpensTag(s);
      assert s[1..] == a[1..] + b;
      assert StripTags(s) == [s[0]] + StripTags(s[1..]);
      forall i | 0 <= i < |a[1..]|
        ensures !OpensTag((a[1..] + b)[i..])
      {
        assert (a[1..] + b)[i..] == (a + b)[i + 1..];
      }
      NoTagPrefixKept(a[1..], b);
      ConsAppend(a, StripTags(b));
    }
  }

  /** Putting the first element back in front of a concatenation. */
  lemma ConsAppend<T>(a: seq<T>, u: seq<T>)
    requires |a| > 0
    ensures [a[0]] + (a[1..] + u) == a + u
  {
    assert [a[0]] + a[1..] == a;
  }

  /** A tag is deleted, up to and including its `>`, and nothing after it. */
  lemma TagDropped(x: string, b: string)
    requires x != "" && '>' !in x
    ensures StripTags("<" + x + ">" + b) == StripTags(b)
  {
    var s := "<" + x + ">" + b;
    var n := |x| + 1;
    assert s[n] == '>';
    assert OpensTag(s) by {
      assert s[1] == x[0];
    }
    assert s[..n] == "<" + x;
    var j := IndexOf(s, '>');
    assert j == n;
    assert s[n + 1..] == b;
  }

  /** `re.sub(r'<[^>]+>', '', ...)` deletes exactly the tag: the text before it
      is kept unchanged, and the text after it is cleaned in turn. */
  lemma TagSpliced(a: string, x: string, b: string)
    requires '<' !in a && x != "" && '>' !in x
    ensures StripTags(a + "<" + x + ">" + b) == a + StripTags(b)
  {
    RegroupAfter(a, "<", x, ">", b);
    PlainPrefixKept(a, "<" + x + ">" + b);
    TagDropped(x, b);
  }

  /** Regrouping a five-part concatenation after its first part. */
  lemma RegroupAfter<T>(a: seq<T>, p: seq<T>, x: seq<T>, q: seq<T>, b: seq<T>)
    ensures a + p + x + q + b == a + (p + x + q + b)
  {
  }

  /** Removing tags twice removes nothing more than removing them once. */
  lemma StripTagsIdempotent(s: string)
    ensures StripTags(StripTags(s)) == StripTags(s)
  {
  }

  /** One raw caption line after the filter: `None` when the line is skipped,
      otherwise the stripped, tag-free text it contributes. */
  function CleanLine(raw: string): (r: Option<string>)
    ensures r.None? <==>
      || Strip(raw) == ""
      || IsCueMarkup(Strip(raw))
      || StripTags(Strip(raw)) == ""
    ensures r.Some? ==> r.value != "" && NoTag(r.value) && |r.value| <= |raw|
    ensures r.Some? ==> r.value == StripTags(Strip(raw))
  {
    var line := Strip(raw);
    if line == "" then None
    else if IsCueMarkup(line) then None
    else
      var text := StripTags(line);
      if text == "" then None else Some(text)
  }

  /** `[y for x in xs if (y := f(x)) is not None]`: the values `f` keeps, in order. */
  function FilterMap<T, U>(xs: seq<T>, f: T -> Option<U>): (ys: seq<U>)
    ensures |ys| <= |xs|
    decreases |xs|
  {
    if |xs| == 0 then []
    else
      var rest := FilterMap(xs[1..], f);
      match f(xs[0])
      case None => rest
      case Some(y) => [y] + rest
  }

  /** Filtering a concatenation filters each half. */
  lemma {:induction false} FilterMapAppend<T, U>(a: seq<T>, b: seq<T>, f: T -> Option<U>)
    ensures FilterMap(a + b, f) == FilterMap(a, f) + FilterMap(b, f)
    decreases |a|
  {
    if |a| == 0 {
      assert a + b == b;
    } else {
      assert (a + b)[0] == a[0];
      assert (a + b)[1..] == a[1..] + b;
      FilterMapAppend(a[1..], b, f);
      var rest := FilterMap(a[1..], f);
      var rb := FilterMap(b, f);
      match f(a[0])
      case None =>
      case Some(y) =>
        assert [y] + (rest + rb) == ([y] + rest) + rb;
    }
  }

  /** An element `f` rejects contributes nothing, wherever it stands. */
  lemma FilterMapSkip<T, U>(before: seq<T>, x: T, after: seq<T>, f: T -> Option<U>)
    requires f(x).None?
    ensures FilterMap(before + [x] + after, f) == FilterMap(before, f) + FilterMap(after, f)
  {
    FilterMapAppend(before + [x], after, f);
    FilterMapAppend(before, [x], f);
    assert [x][0] == x;
    assert [x][1..] == [];
    assert FilterMap(before, f) + [] == FilterMap(before, f);
  }

  /** An element `f` keeps contributes its image, at its own position. */
  lemma FilterMapKeep<T, U>(before: seq<T>, x: T, after: seq<T>, f: T -> Option<U>)
    requires f(x).Some?
    ensures FilterMap(before + [x] + after, f)
      == FilterMap(before, f) + [f(x).value] + FilterMap(after, f)
  {
    FilterMapAppend(before + [x], after, f);
    FilterMapAppend(before, [x], f);
    assert [x][0] == x;
    assert [x][1..] == [];
  }

  /** Nothing is kept exactly when `f` rejects every element. */
  lemma {:induction false} FilterMapEmptyIff<T, U>(xs: seq<T>, f: T -> Option<U>)
    ensures FilterMap(xs, f) == [] <==> forall k :: 0 <= k < |xs| ==> f(xs[k]).None?
    decreases |xs|
  {
    if |xs| > 0 {
      FilterMapEmptyIff(xs[1..], f);
      assert forall k :: 1 <= k < |xs| ==> xs[1..][k - 1] == xs[k];
    }
  }

  /** The `text_parts` the loop collects: the cleaned surviving lines, in order,
      each non-empty and free of tags. */
  function ParseCaptionLines(lines: seq<string>): (parts: seq<string>)
    ensures |parts| <= |lines|
    ensures forall k :: 0 <= k < |parts| ==> parts[k] != "" && NoTag(parts[k])
  {
    KeptLinesAreClean(lines);
    FilterMap(lines, CleanLine)
  }

  /** Every kept line is non-empty and free of tags. */
  lemma KeptLinesAreClean(lines: seq<string>)
    ensures forall k :: 0 <= k < |FilterMap(lines, CleanLine)| ==>
      FilterMap(lines, CleanLine)[k] != "" && NoTag(FilterMap(lines, CleanLine)[k])
  {
    FilterMapKeeps(lines, CleanLine, (text: string) => text != "" && NoTag(text));
  }

  /** Every value `f` keeps has property `p` when every value `f` can produce has it. */
  lemma {:induction false} FilterMapKeeps<T, U>(xs: seq<T>, f: T -> Option<U>, p: U -> bool)
    requires forall x :: f(x).Some? ==> p(f(x).value)
    ensures forall k :: 0 <= k < |FilterMap(xs, f)| ==> p(FilterMap(xs, f)[k])
    decreases |xs|
  {
    if |xs| > 0 {
      FilterMapKeeps(xs[1..], f, p);
    }
  }

  /** The filter works line by line: parsing a concatenation parses each half. */
  lemma ParseAppend(a: seq<string>, b: seq<string>)
    ensures ParseCaptionLines(a + b) == ParseCaptionLines(a) + ParseCaptionLines(b)
  {
    FilterMapAppend(a, b, CleanLine);
  }

  /** A skipped line contributes nothing, wherever it stands. */
  lemma SkippedLine(before: seq<string>, line: string, after: seq<string>)
    requires CleanLine(line).None?
    ensures ParseCaptionLines(before + [line] + after)
      == ParseCaptionLines(before) + ParseCaptionLines(after)
  {
    FilterMapSkip(before, line, after, CleanLine);
  }

  /** A kept line contributes exactly its cleaned text, at its own position. */
  lemma KeptLine(before: seq<string>, line: string, after: seq<string>)
    requires CleanLine(line).Some?
    ensures ParseCaptionLines(before + [line] + after)
      == ParseCaptionLines(before) + [CleanLine(line).value] + ParseCaptionLines(after)
  {
    FilterMapKeep(before, line, after, CleanLine);
  }

  /** Nothing survives exactly when every line is skipped. */
  lemma ParseEmptyIff(lines: seq<string>)
    ensures ParseCaptionLines(lines) == [] <==>
      forall k :: 0 <= k < |lines| ==> CleanLine(lines[k]).None?
  {
    FilterMapEmptyIff(lines, CleanLine);
  }

  /** The tail of `fetch_youtube_transcript`: split the payload on `\n`, filter
      the lines, fail when nothing survives, else join the parts with one space. */
  function ExtractCaptionText(content: string): (r: Result<string, TranscriptError>)
    ensures r.Err? ==> r.error == NoExtractableText
    ensures r.Ok? ==> r.value != "" && |r.value| <= |content|
  {
    var parts := ParseCaptionLines(Split(content, '\n'));
    JoinLength(parts, content);
    JoinParts(parts)
  }

  /** `' '.join(parts)`, or the "no extractable text" error when there are none. */
  function JoinParts(parts: seq<string>): (r: Result<string, TranscriptError>)
    ensures r.Err? <==> parts == []
    ensures r.Err? ==> r.error == NoExtractableText
    ensures r.Ok? && (forall i :: 0 <= i < |parts| ==> ' ' !in parts[i]) ==> Split(r.value, ' ') == parts
  {
    JoinSplitsBack(parts);
    if parts == [] then Err(NoExtractableText) else Ok(Join(parts, ' '))
  }

  /** Space-free parts are read back from their join by splitting at spaces. */
  lemma JoinSplitsBack(parts: seq<string>)
    ensures parts != [] && (forall i :: 0 <= i < |parts| ==> ' ' !in parts[i]) ==>
      Split(Join(parts, ' '), ' ') == parts
  {
    if parts != [] && (forall i :: 0 <= i < |parts| ==> ' ' !in parts[i]) {
      SplitJoin(parts, ' ');
    }
  }

  /** Joined parts of two lists are glued with one space; an empty list adds nothing. */
  lemma JoinPartsAppend(a: seq<string>, b: seq<string>)
    ensures JoinParts(a).Ok? && JoinParts(b).Ok? ==>
      JoinParts(a + b) == Ok(JoinParts(a).value + " " + JoinParts(b).value)
    ensures a == [] ==> JoinParts(a + b) == JoinParts(b)
    ensures b == [] ==> JoinParts(a + b) == JoinParts(a)
  {
    if a != [] && b != [] {
      JoinAppend(a, b, ' ');
    } else if a == [] {
      assert a + b == b;
    } else {
      assert a + b == a;
    }
  }

  /** Joining the surviving parts never yields more characters than the payload
      had: each part is no longer than its line, and each space stands for a `\n`. */
  lemma JoinLength(parts: seq<string>, content: string)
    requires parts == ParseCaptionLines(Split(content, '\n'))
    ensures parts != [] ==> Join(parts, ' ') != "" && |Join(parts, ' ')| <= |content|
  {
    if parts == [] {
      return;
    }
    var lines := Split(content, '\n');
    ParsedLength(lines);
    JoinSplit(content, '\n');
    JoinedLength(parts, ' ');
    JoinedLength(lines, '\n');
  }

  /** Total length of a list of strings. */
  function TotalLength(parts: seq<string>): nat
    decreases |parts|
  {
    if |parts| == 0 then 0 else |parts[0]| + TotalLength(parts[1..])
  }

  /** A join adds exactly one separator between consecutive parts. */
  lemma {:induction false} JoinedLength(parts: seq<string>, sep: char)
    requires |parts| >= 1
    ensures |Join(parts, sep)| == TotalLength(parts) + |parts| - 1
    decreases |parts|
  {
    if |parts| > 1 {
      JoinedLength(parts[1..], sep);
    }
  }

  /** The surviving parts are jointly no longer than the lines they came from,
      and have some text when there is at least one of them. */
  lemma {:induction false} ParsedLength(lines: seq<string>)
    ensures TotalLength(FilterMap(lines, CleanLine)) <= TotalLength(lines)
    ensures FilterMap(lines, CleanLine) != [] ==> TotalLength(FilterMap(lines, CleanLine)) > 0
    decreases |lines|
  {
    if |lines| > 0 {
      ParsedLength(lines[1..]);
      var rest := FilterMap(lines[1..], CleanLine);
      match CleanLine(lines[0])
      case None =>
      case Some(text) =>
        assert ([text] + rest)[1..] == rest;
    }
  }

  /** Extraction fails exactly when no line of the payload survives the filter. */
  lemma ExtractFailsIffNothingParsed(content: string)
    ensures ExtractCaptionText(content).Err? <==> ParseCaptionLines(Split(content, '\n')) == []
  {
  }

  /** Extraction fails exactly when every line of the payload is skipped. */
  lemma ExtractFailsIffAllSkipped(content: string)
    ensures ExtractCaptionText(content).Err? <==>
      forall k :: 0 <= k < |Split(content, '\n')| ==> CleanLine(Split(content, '\n')[k]).None?
  {
    ExtractFailsIffNothingParsed(content);
    ParseEmptyIff(Split(content, '\n'));
  }

  /** A payload of one line gives that line's cleaned text, or fails when the
      line is skipped. With `ExtractConcat` this fixes the result for every payload. */
  lemma ExtractLine(line: string)
    requires '\n' !in line
    ensures ExtractCaptionText(line)
         == if CleanLine(line).Some? then Ok(CleanLine(line).value) else Err(NoExtractableText)
  {
    SplitNoSeparator(line, '\n');
    assert [line][1..] == [];
  }

  /** A line starting with `NOTE` is dropped on its own: the lines after it,
      the body of a multi-line NOTE block, are filtered like any others. */
  lemma NoteLineOnlySkipped(note: string, body: string)
    requires '\n' !in note && StartsWith(Strip(note), "NOTE")
    ensures ExtractCaptionText(note + "\n" + body) == ExtractCaptionText(body)
  {
    ExtractLine(note);
    ExtractConcat(note, body);
  }

  /** Two payloads glued with a line break give their texts glued with one
      space; a payload with no text adds nothing to the other. */
  lemma ExtractConcat(a: string, b: string)
    ensures ExtractCaptionText(a).Ok? && ExtractCaptionText(b).Ok? ==>
      ExtractCaptionText(a + "\n" + b)
        == Ok(ExtractCaptionText(a).value + " " + ExtractCaptionText(b).value)
    ensures ExtractCaptionText(a).Err? ==> ExtractCaptionText(a + "\n" + b) == ExtractCaptionText(b)
    ensures ExtractCaptionText(b).Err? ==> ExtractCaptionText(a + "\n" + b) == ExtractCaptionText(a)
  {
    var la := Split(a, '\n');
    var lb := Split(b, '\n');
    SplitAppend(a, b, '\n');
    assert Split(a + "\n" + b, '\n') == la + lb;
    ParseAppend(la, lb);
    JoinPartsAppend(ParseCaptionLines(la), ParseCaptionLines(lb));
    ExtractFailsIffNothingParsed(a);
    ExtractFailsIffNothingParsed(b);
  }
}

=== FILE: endpoints.dfy ===
/** The request handlers of server.py: the three summarize endpoints and the
    follow-up endpoint, with their input validation and the order in which
    they consult the outside world. The outside world (the Gemini model, page
    and subtitle downloads, yt-dlp, `urlparse`, the clock) is one record of
    functions; the summary cache is threaded through every request. */
module Endpoints {
  import opened Outcomes
  import opened Strings
  import opened CaptionText
  import opened CaptionSource
  import opened Summarizer
  import opened FollowUp
  import opened Replies

  /** What the handlers see of the world outside the process.
      - `cacheKey`: the MD5 digest of a string;
      - `summarize(instruction, content)`: the model's answer to
        `SummaryPrompt(instruction, content)`, `None` when the call raises;
      - `parseJson`: `json.loads` of the cleaned answer, `None` when it raises;
      - `answer(context, turns, question)`: the model's answer to
        `TurnsPrompt(context, turns, question)`, `None` when the call raises;
      - `pageText(url)`: the visible text BeautifulSoup extracts from the
        downloaded page, `None` when the download fails;
      - `extractInfo(url)`: yt-dlp's metadata, `None` when extraction raises;
      - `download(url)`: a subtitle file, `None` when the request fails;
      - `domain(url)`: `urlparse(url).netloc`, `None` when `urlparse` raises;
      - `today`: the current date formatted `%d %b. %Y`. */
  datatype World<K> = World(
    cacheKey: string -> K,
    summarize: (string, string) -> Option<string>,
    parseJson: string -> Option<SummaryJson>,
    answer: (string, seq<Message>, string) -> Option<string>,
    pageText: string -> Option<string>,
    extractInfo: string -> Option<VideoInfo>,
    download: string -> Option<string>,
    domain: string -> Option<string>,
    today: string)

  /** The reply together with the cache as the request leaves it. */
  datatype Served<K> = Served(reply: Reply, cache: map<K, SummaryJson>)

  /** Fewest characters `/summarize` accepts, surrounding whitespace not counted. */
  const MinTextChars := 20

  /** Fewest characters of page text `fetch_url_text` accepts. */
  const MinPageChars := 100

  /** The length key a request asks for, `M` when it names none. */
  function LengthKey(length: Option<string>): string {
    length.GetOr("M")
  }

  /** How a request may change the cache: it stays within 100 entries, no
      entry is evicted or changed, and a request that fails leaves it as it was. */
  predicate CacheKept<K>(before: map<K, SummaryJson>, after: map<K, SummaryJson>, reply: Reply) {
    && (|before| <= CacheCapacity ==> |after| <= CacheCapacity)
    && (forall k :: k in before ==> k in after && after[k] == before[k])
    && (!reply.Success? ==> after == before)
  }

  /** The citation `generate_citation` returns: empty when `urlparse` fails. */
  function CitationFor<K>(world: World<K>, url: string, summary: string): (r: string)
    ensures world.domain(url).None? ==> r == ""
    ensures world.domain(url).Some? ==> r == Citation(world.domain(url).value, world.today, summary)
  {
    match world.domain(url)
    case None => ""
    case Some(d) => Citation(d, world.today, summary)
  }

  /** The summary step shared by all three summarize endpoints: one
      `gemini_summarize` call on `text`, its data formatted as the reply, cited
      when the text came from `citeUrl`. */
  function SummarizeStep<K(==)>(world: World<K>, cache: map<K, SummaryJson>, text: string, length: string,
                                citeUrl: Option<string>)
    : (r: Served<K>)
    ensures !r.reply.BadRequest?
    ensures CacheKept(cache, r.cache, r.reply)
    ensures var call := GeminiSummarize(cache, world.cacheKey, text, length, world.summarize, world.parseJson);
      && r.cache == call.cache
      && (call.outcome.Err? <==> r.reply == ServerError)
      && (call.outcome.Ok? ==>
            var response := FormatSummaryResponse(call.outcome.value);
            r.reply == Success(Summary(response, if citeUrl.None? then None
                                                 else Some(CitationFor(world, citeUrl.value, response.summary)))))
  {
    var call := GeminiSummarize(cache, world.cacheKey, text, length, world.summarize, world.parseJson);
    var reply :=
      match call.outcome
      case Err(_) => ServerError
      case Ok(data) =>
        var response := FormatSummaryResponse(data);
        match citeUrl
        case None => Success(Summary(response, None))
        case Some(url) => Success(Summary(response, Some(CitationFor(world, url, response.summary))));
    Served(reply, call.cache)
  }

  /** `POST /summarize`. Rejects text that is shorter than 20 characters once
      stripped of surrounding whitespace; otherwise the text is summarized as
      sent, surrounding whitespace included. */
  function SummarizeText<K(==)>(world: World<K>, cache: map<K, SummaryJson>,
                                text: Option<string>, length: Option<string>)
    : (r: Served<K>)
    ensures CacheKept(cache, r.cache, r.reply)
    ensures r.reply.BadRequest? <==> |Strip(text.GetOr(""))| < MinTextChars
    ensures r.reply.BadRequest? ==> r == Served(BadRequest(TextTooShort), cache)
    ensures !r.reply.BadRequest? ==> r == SummarizeStep(world, cache, text.GetOr(""), LengthKey(length), None)
  {
    var t := text.GetOr("");
    if |Strip(t)| < MinTextChars then Served(BadRequest(TextTooShort), cache)
    else
      SummarizeStep(world, cache, t, LengthKey(length), None)
  }

  /** `fetch_url_text`'s last check: the page must yield at least 100
      characters of text. */
  function PageText(text: Option<string>): (r: Option<string>)
    ensures r.Some? <==> text.Some? && |text.value| >= MinPageChars
    ensures r.Some? ==> r == text
  {
    if text.Some? && |text.value| >= MinPageChars then text else None
  }

  /** `POST /summarize-url`. Rejects a missing or empty URL; a page that cannot
      be downloaded or has under 100 characters of text is a server error;
      otherwise the page text is summarized and the URL cited. */
  function SummarizeUrl<K(==)>(world: World<K>, cache: map<K, SummaryJson>,
                               url: Option<string>, length: Option<string>)
    : (r: Served<K>)
    ensures CacheKept(cache, r.cache, r.reply)
    ensures r.reply.BadRequest? <==> url.GetOr("") == ""
    ensures r.reply.BadRequest? ==> r == Served(BadRequest(NoUrl), cache)
    ensures url.GetOr("") != "" && PageText(world.pageText(url.value)).None? ==>
      r == Served(ServerError, cache)
    ensures url.GetOr("") != "" && PageText(world.pageText(url.value)).Some? ==>
      r == SummarizeStep(world, cache, world.pageText(url.value).value, LengthKey(length), Some(url.value))
  {
    var u := url.GetOr("");
    if u == "" then Served(BadRequest(NoUrl), cache)
    else
      match PageText(world.pageText(u))
      case None => Served(ServerError, cache)
      case Some(text) =>
        SummarizeStep(world, cache, text, LengthKey(length), Some(u))
  }

  /** The host names a YouTube link is recognised by. */
  predicate LooksLikeYouTube(url: string) {
    Contains(url, "youtube.com") || Contains(url, "youtu.be")
  }

  /** The substring test is kept by any text around the URL. */
  lemma YouTubeMentionKept(url: string, before: string, after: string)
    requires LooksLikeYouTube(url)
    ensures LooksLikeYouTube(before + url + after)
  {
    if Contains(url, "youtube.com") {
      ContainsWidened(before, url, after, "youtube.com");
    } else {
      ContainsWidened(before, url, after, "youtu.be");
    }
  }

  /** `POST /summarize-youtube`. Rejects a URL that mentions neither
      `youtube.com` nor `youtu.be`; a failed transcript fetch is a server
      error; otherwise the transcript is summarized and the URL cited. */
  function SummarizeYouTube<K(==)>(world: World<K>, cache: map<K, SummaryJson>,
                                   url: Option<string>, length: Option<string>)
    : (r: Served<K>)
    ensures CacheKept(cache, r.cache, r.reply)
    ensures r.reply.BadRequest? <==> !LooksLikeYouTube(url.GetOr(""))
    ensures r.reply.BadRequest? ==> r == Served(BadRequest(NotYouTube), cache)
    ensures url.Some? && LooksLikeYouTube(url.value) ==>
      var transcript := FetchTranscript(world.extractInfo(url.value), world.download);
      && (transcript.Err? ==> r == Served(ServerError, cache))
      && (transcript.Ok? ==>
            r == SummarizeStep(world, cache, transcript.value, LengthKey(length), Some(url.value)))
  {
    var u := url.GetOr("");
    if !LooksLikeYouTube(u) then Served(BadRequest(NotYouTube), cache)
    else
      match FetchTranscript(world.extractInfo(u), world.download)
      case Err(_) => Served(ServerError, cache)
      case Ok(transcript) =>
        SummarizeStep(world, cache, transcript, LengthKey(length), Some(u))
  }

  /** `POST /follow-up`. Rejects a missing question, then a missing context;
      otherwise the model answers the prompt built from the context, the
      last four turns of the history and the question. The cache is not used. */
  function AskFollowUp<K>(world: World<K>, question: Option<string>, context: Option<string>,
                          history: Option<seq<Message>>)
    : (r: Reply)
    ensures question.GetOr("") == "" ==> r == BadRequest(NoQuestion)
    ensures question.GetOr("") != "" && context.GetOr("") == "" ==>
      r == BadRequest(NoContext)
    ensures question.GetOr("") != "" && context.GetOr("") != "" ==>
      var answer := world.answer(context.value, RecentHistory(history.GetOr([])), question.value);
      && (answer.None? ==> r == ServerError)
      && (answer.Some? ==> r == Success(Answer(answer.value)))
  {
    var q := question.GetOr("");
    var c := context.GetOr("");
    match CheckRequest(q, c)
    case Some(e) => BadRequest(e)
    case None =>
      match world.answer(c, RecentHistory(history.GetOr([])), q)
      case None => ServerError
      case Some(a) => Success(Answer(a))
  }

  /** One request to the server, by route, with the JSON fields it reads
      (`None` for a missing field). */
  datatype Request =
    | SummarizeTextRequest(text: Option<string>, length: Option<string>)
    | SummarizeUrlRequest(url: Option<string>, length: Option<string>)
    | SummarizeYouTubeRequest(url: Option<string>, length: Option<string>)
    | FollowUpRequest(question: Option<string>, context: Option<string>, history: Option<seq<Message>>)

  /** Dispatch a request to its handler. */
  function Handle<K(==)>(world: World<K>, cache: map<K, SummaryJson>, request: Request): (r: Served<K>)
    ensures CacheKept(cache, r.cache, r.reply)
  {
    match request
    case SummarizeTextRequest(text, length) => SummarizeText(world, cache, text, length)
    case SummarizeUrlRequest(url, length) => SummarizeUrl(world, cache, url, length)
    case SummarizeYouTubeRequest(url, length) => SummarizeYouTube(world, cache, url, length)
    case FollowUpRequest(question, context, history) => Served(AskFollowUp(world, question, context, history), cache)
  }

  /** Serve a run of requests in order, each seeing the cache the previous one
      left. Request `i` meets the outside world as `worlds[i]`, so the model may
      answer a repeated prompt differently, and pages and the date may change. */
  function HandleAll<K(==)>(worlds: seq<World<K>>, cache: map<K, SummaryJson>, requests: seq<Request>)
    : (r: (seq<Reply>, map<K, SummaryJson>))
    requires |worlds| == |requests|
    ensures |r.0| == |requests|
    ensures |requests| > 0 ==> r.0[0] == Handle(worlds[0], cache, requests[0]).reply
    decreases |requests|
  {
    if |requests| == 0 then ([], cache)
    else
      var first := Handle(worlds[0], cache, requests[0]);
      var (rest, after) := HandleAll(worlds[1..], first.cache, requests[1..]);
      ([first.reply] + rest, after)
  }

  /** Serving a run of requests in two parts serves the second part from the
      cache the first part left. */
  lemma {:induction false} HandleAllAppend<K>(wa: seq<World<K>>, wb: seq<World<K>>, cache: map<K, SummaryJson>,
                                              a: seq<Request>, b: seq<Request>)
    requires |wa| == |a| && |wb| == |b|
    ensures var first := HandleAll(wa, cache, a);
      var second := HandleAll(wb, first.1, b);
      HandleAll(wa + wb, cache, a + b) == (first.0 + second.0, second.1)
    decreases |a|
  {
    if |a| == 0 {
      assert a + b == b && wa + wb == wb;
      assert HandleAll(wb, cache, b).0 == [] + HandleAll(wb, cache, b).0;
    } else {
      var h := Handle(wa[0], cache, a[0]);
      HandleAllAppend(wa[1..], wb, h.cache, a[1..], b);
      HandleAllStep(wa, wb, cache, a, b);
      var tail := HandleAll(wa[1..], h.cache, a[1..]);
      ConsAppendPair(h.reply, tail, HandleAll(wb, tail.1, b), HandleAll(wa[1..] + wb, h.cache, a[1..] + b));
    }
  }

  /** The first request of `a` is served first, whatever follows `a`. */
  lemma HandleAllStep<K>(wa: seq<World<K>>, wb: seq<World<K>>, cache: map<K, SummaryJson>,
                         a: seq<Request>, b: seq<Request>)
    requires |wa| == |a| > 0 && |wb| == |b|
    ensures var h := Handle(wa[0], cache, a[0]);
      && HandleAll(wa + wb, cache, a + b)
         == ([h.reply] + HandleAll(wa[1..] + wb, h.cache, a[1..] + b).0, HandleAll(wa[1..] + wb, h.cache, a[1..] + b).1)
      && HandleAll(wa, cache, a)
         == ([h.reply] + HandleAll(wa[1..], h.cache, a[1..]).0, HandleAll(wa[1..], h.cache, a[1..]).1)
  {
    assert (a + b)[0] == a[0] && (wa + wb)[0] == wa[0];
    assert (a + b)[1..] == a[1..] + b && (wa + wb)[1..] == wa[1..] + wb;
  }

  /** Prefixing one reply commutes with gluing two runs of replies. */
  lemma ConsAppendPair<R, C>(x: R, first: (seq<R>, C), second: (seq<R>, C), whole: (seq<R>, C))
    requires whole == (first.0 + second.0, second.1)
    ensures ([x] + whole.0, whole.1) == ([x] + first.0 + second.0, second.1)
  {
    assert [x] + (first.0 + second.0) == [x] + first.0 + second.0;
  }

  /** Over any run of requests, whatever the outside world does at each of
      them, the cache never grows past 100 entries, and an entry, once cached,
      is never evicted or changed. */
  lemma {:induction false} CacheInvariant<K>(worlds: seq<World<K>>, cache: map<K, SummaryJson>, requests: seq<Request>)
    requires |worlds| == |requests|
    requires |cache| <= CacheCapacity
    ensures |HandleAll(worlds, cache, requests).1| <= CacheCapacity
    ensures forall k :: k in cache ==>
      k in HandleAll(worlds, cache, requests).1 && HandleAll(worlds, cache, requests).1[k] == cache[k]
    ensures |HandleAll(worlds, cache, requests).0| == |requests|
    decreases |requests|
  {
    if |requests| > 0 {
      var first := Handle(worlds[0], cache, requests[0]);
      CacheInvariant(worlds[1..], first.cache, requests[1..]);
    }
  }

  /** A rejected request never reaches the model, the downloads or yt-dlp:
      the reply is the same whatever the outside world would have done. */
  lemma RejectionIgnoresWorld<K>(w1: World<K>, w2: World<K>, cache: map<K, SummaryJson>, request: Request)
    requires Handle(w1, cache, request).reply.BadRequest?
    ensures Handle(w2, cache, request) == Handle(w1, cache, request)
  {
  }

  /** Only the last four turns of the history reach the model: conversations
      that end alike get the same reply. */
  lemma OnlyRecentTurnsMatter<K>(world: World<K>, question: Option<string>, context: Option<string>,
                                 older: seq<Message>, recent: seq<Message>)
    requires |recent| >= HistoryWindow
    ensures AskFollowUp(world, question, context, Some(older + recent))
         == AskFollowUp(world, question, context, Some(recent))
  {
    OlderHistoryIgnored(older, recent);
  }

  /** `/summarize` sends the text as received: padding a valid text with
      whitespace does not change whether it is accepted, but it is the padded
      text that is summarized. */
  lemma PaddingKeepsAcceptance<K>(world: World<K>, cache: map<K, SummaryJson>, text: string,
                                      pad: string, length: Option<string>)
    requires AllSpace(pad)
    ensures SummarizeText(world, cache, Some(text + pad), length).reply.BadRequest?
        <==> SummarizeText(world, cache, Some(text), length).reply.BadRequest?
  {
    StripIgnoresTrailingSpace(text, pad);
  }
}

=== FILE: follow_up.dfy ===
/** The prompt `follow_up_question` (server.py) builds for a question about a
    summary: the summary, the most recent turns of the conversation, then the
    new question. */
module FollowUp {
  import opened Outcomes
  import opened Strings
  import opened Replies

  /** One history entry as the client sends it: a role and the text of the turn. */
  datatype Message = Message(role: string, content: string)

  /** How many of the latest history entries the prompt quotes. */
  const HistoryWindow := 4

  /** `history[-4:]`: the last four entries, or all of them when there are fewer. */
  function RecentHistory(history: seq<Message>): (r: seq<Message>)
    ensures |r| == if |history| < HistoryWindow then |history| else HistoryWindow
    ensures forall i :: 0 <= i < |r| ==> r[i] == history[|history| - |r| + i]
  {
    if |history| < HistoryWindow then history else history[|history| - HistoryWindow..]
  }

  /** Older entries never matter: prefixing a history of at least four entries
      leaves its window unchanged. */
  lemma OlderHistoryIgnored(older: seq<Message>, history: seq<Message>)
    requires |history| >= HistoryWindow
    ensures RecentHistory(older + history) == RecentHistory(history)
  {
    assert (older + history)[|older + history| - HistoryWindow..] == history[|history| - HistoryWindow..];
  }

  /** The speaker label: `User` exactly for the role `user`, `Assistant` for any other role. */
  function RoleLabel(role: string): (r: string)
    ensures r == "User" <==> role == "user"
    ensures r == "Assistant" <==> role != "user"
  {
    if role == "user" then "User" else "Assistant"
  }

  /** The text of one quoted turn, without its line break. */
  function TurnLine(m: Message): string {
    RoleLabel(m.role) + ": " + m.content
  }

  /** The quoted turns, one line each, every line ended by a line break. */
  function HistoryLines(turns: seq<Message>): (r: string)
    ensures |r| >= |turns|
    decreases |turns|
  {
    if |turns| == 0 then "" else TurnLine(turns[0]) + "\n" + HistoryLines(turns[1..])
  }

  /** Quoting two runs of turns quotes each in turn. */
  lemma {:induction false} HistoryLinesAppend(a: seq<Message>, b: seq<Message>)
    ensures HistoryLines(a + b) == HistoryLines(a) + HistoryLines(b)
    decreases |a|
  {
    if |a| > 0 {
      assert (a + b)[1..] == a[1..] + b;
      HistoryLinesAppend(a[1..], b);
    } else {
      assert a + b == b;
    }
  }

  /** Reading the quoted turns back: when no turn's text contains a line break,
      splitting at line breaks gives one labelled line per turn, in order, and
      an empty piece after the final break. */
  lemma {:induction false} HistoryLinesSplit(turns: seq<Message>)
    requires forall i :: 0 <= i < |turns| ==> '\n' !in turns[i].content
    ensures var pieces := Split(HistoryLines(turns), '\n');
      && |pieces| == |turns| + 1
      && (forall i :: 0 <= i < |turns| ==> pieces[i] == TurnLine(turns[i]))
      && pieces[|turns|] == ""
    decreases |turns|
  {
    if |turns| > 0 {
      var line := TurnLine(turns[0]);
      var rest := HistoryLines(turns[1..]);
      HistoryLinesSplit(turns[1..]);
      SingleLine(turns[0]);
      SplitAppend(line, rest, '\n');
      assert HistoryLines(turns) == line + ['\n'] + rest;
      var pieces := Split(HistoryLines(turns), '\n');
      assert pieces == [line] + Split(rest, '\n');
      forall i | 1 <= i < |turns|
        ensures pieces[i] == TurnLine(turns[i])
      {
        assert turns[i] == turns[1..][i - 1];
      }
    }
  }

  /** A turn whose text has no line break is quoted on a single line. */
  lemma SingleLine(m: Message)
    requires '\n' !in m.content
    ensures Split(TurnLine(m), '\n') == [TurnLine(m)]
  {
    var tag := RoleLabel(m.role) + ": ";
    assert '\n' !in tag;
    assert TurnLine(m) == tag + m.content;
    SplitNoSeparator(TurnLine(m), '\n');
  }

  /** The fixed opening of the prompt, with the summary being discussed. */
  function PromptHead(context: string): string {
    "You are a helpful assistant answering follow-up questions about a summary.\n\nOriginal Summary:\n"
      + context + "\n\nConversation History:\n"
  }

  /** The closing of the prompt: the new question, then the cue for the answer. */
  function PromptTail(question: string): string {
    "\nUser: " + question + "\nAssistant:"
  }

  /** A prompt quoting `turns`: the summary, each turn on its line, the
      question. It opens with the summary and ends with the question. */
  function TurnsPrompt(context: string, turns: seq<Message>, question: string): (r: string)
    ensures StartsWith(r, PromptHead(context))
    ensures EndsWith(r, PromptTail(question))
    ensures Contains(r, HistoryLines(turns))
  {
    Framed(PromptHead(context), HistoryLines(turns), PromptTail(question))
  }

  /** The prompt sent to the model for a conversation: the summary, the last
      four turns of its history, the question. */
  function FollowUpPrompt(context: string, history: seq<Message>, question: string): (r: string)
    ensures StartsWith(r, PromptHead(context))
    ensures EndsWith(r, PromptTail(question))
    ensures Contains(r, HistoryLines(RecentHistory(history)))
  {
    TurnsPrompt(context, RecentHistory(history), question)
  }

  /** Two conversations that end in the same four turns give the same prompt. */
  lemma SameWindowSamePrompt(context: string, h1: seq<Message>, h2: seq<Message>, question: string)
    requires |h1| >= HistoryWindow && |h2| >= HistoryWindow
    requires h1[|h1| - HistoryWindow..] == h2[|h2| - HistoryWindow..]
    ensures FollowUpPrompt(context, h1, question) == FollowUpPrompt(context, h2, question)
  {
  }

  /** With a short history every turn is quoted, in order. */
  lemma {:induction false} ShortHistoryQuotedWhole(context: string, history: seq<Message>, question: string)
    requires |history| <= HistoryWindow
    ensures FollowUpPrompt(context, history, question) == TurnsPrompt(context, history, question)
  {
    assert RecentHistory(history) == history by {
      assert |history| == HistoryWindow ==> history[|history| - HistoryWindow..] == history;
    }
  }

  /** A new turn pushes the oldest quoted turn out of a full window. */
  lemma {:induction false} NewTurnSlidesWindow(history: seq<Message>, m: Message)
    requires |history| >= HistoryWindow
    ensures RecentHistory(history + [m]) == RecentHistory(history)[1..] + [m]
  {
    var h := history + [m];
    assert h[|h| - HistoryWindow..] == history[|history| - HistoryWindow + 1..] + [m];
  }

  /** The checks before the prompt is built: the question first, then the
      context. A request passes exactly when both are non-empty. */
  function CheckRequest(question: string, context: string): (r: Option<Rejection>)
    ensures r == Some(NoQuestion) <==> question == ""
    ensures r == Some(NoContext) <==> question != "" && context == ""
    ensures r.None? <==> question != "" && context != ""
  {
    if question == "" then Some(NoQuestion)
    else if context == "" then Some(NoContext)
    else None
  }
}

=== FILE: outcomes.dfy ===
/** Optional values and success/failure results, used in place of Python's
    `None` and of the exceptions the server raises and catches. */
module Outcomes {

  /** A value that may be absent: a missing dictionary key or a `None`. */
  datatype Option<T> = None | Some(value: T) {

    /** The wrapped value, or `default` when absent (Python's `dict.get(k, default)`). */
    function GetOr(default: T): T {
      match this
      case Some(v) => v
      case None => default
    }
  }

  /** The outcome of an operation that either returns a value or raises an error. */
  datatype Result<T, E> = Ok(value: T) | Err(error: E)
}

=== FILE: replies.dfy ===
/** What a request handler of server.py sends back: a JSON body with HTTP
    200, an error message with 400 when the request is rejected, or 500 when
    serving it fails. */
module Replies {
  import opened Outcomes
  import opened Summarizer

  /** Why a request is rejected before anything is fetched or generated. */
  datatype Rejection =
    | TextTooShort
    | NoUrl
    | NotYouTube
    | NoQuestion
    | NoContext

  /** The error message the client sees for a rejection. */
  function RejectionMessage(e: Rejection): string {
    match e
    case TextTooShort => "Text must be at least 20 characters"
    case NoUrl => "No URL provided"
    case NotYouTube => "Invalid YouTube URL"
    case NoQuestion => "No question provided"
    case NoContext => "No context available. Summarize something first."
  }

  /** Each rejection has its own message, so a client can tell them apart. */
  lemma RejectionMessagesDistinct(e1: Rejection, e2: Rejection)
    ensures RejectionMessage(e1) == RejectionMessage(e2) <==> e1 == e2
  {
  }

  /** The body of a successful reply. */
  datatype Body =
    | Summary(response: SummaryResponse, citation: Option<string>)
    | Answer(text: string)

  /** A reply: success, a rejected request, or a failure while serving it. */
  datatype Reply = Success(body: Body) | BadRequest(reason: Rejection) | ServerError

  /** The HTTP status of a reply. */
  function Status(r: Reply): (code: int)
    ensures code == 200 <==> r.Success?
    ensures code == 400 <==> r.BadRequest?
    ensures code == 500 <==> r.ServerError?
  {
    match r
    case Success(_) => 200
    case BadRequest(_) => 400
    case ServerError => 500
  }
}

=== FILE: strings.dfy ===
/** The handful of Python `str` operations the server relies on: `strip`,
    `startswith`, `in`, `split` on one character and `join` with one character.
    Characters are Unicode scalar values, as Python's code points are. */
module Strings {

  /** Whitespace as `str.strip()` removes it, restricted to space, tab, line
      feed, carriage return, vertical tab and form feed. Python also strips
      the separators `\x1c`-`\x1f` and the non-ASCII spaces; those are not
      modelled. */
  predicate IsSpace(c: char) {
    c == ' ' || c == '\t' || c == '\n' || c == '\r' || c == '\U{000B}' || c == '\U{000C}'
  }

  /** A decimal digit as the regular expression class `\d` matches it,
      restricted to ASCII `0`-`9` (Python also accepts other Unicode digits). */
  predicate IsDigit(c: char) {
    '0' <= c <= '9'
  }

  predicate AllSpace(s: string) {
    forall i :: 0 <= i < |s| ==> IsSpace(s[i])
  }

  /** `s` with its leading run of whitespace removed. */
  function StripStart(s: string): (r: string)
    ensures |r| <= |s| && r == s[|s| - |r|..]
    ensures r == [] || !IsSpace(r[0])
    ensures forall i :: 0 <= i < |s| - |r| ==> IsSpace(s[i])
    decreases |s|
  {
    if |s| > 0 && IsSpace(s[0]) then
      var t := s[1..];
      var r := StripStart(t);
      assert r == s[|s| - |r|..] by {
        assert t[|t| - |r|..] == s[|s| - |r|..];
      }
      assert forall i :: 1 <= i < |s| - |r| ==> IsSpace(s[i]) by {
        assert forall i :: 1 <= i < |s| ==> s[i] == t[i - 1];
      }
      r
    else s
  }

  /** `s` with its trailing run of whitespace removed. */
  function StripEnd(s: string): (r: string)
    ensures |r| <= |s| && r == s[..|r|]
    ensures r == [] || !IsSpace(r[|r| - 1])
    ensures forall i :: |r| <= i < |s| ==> IsSpace(s[i])
    decreases |s|
  {
    if |s| > 0 && IsSpace(s[|s| - 1]) then
      var t := s[..|s| - 1];
      var r := StripEnd(t);
      assert r == s[..|r|] by {
        assert t[..|r|] == s[..|r|];
      }
      assert forall i :: |r| <= i < |s| - 1 ==> IsSpace(s[i]) by {
        assert forall i :: 0 <= i < |s| - 1 ==> s[i] == t[i];
      }
      r
    else s
  }

  /** `r` is the infix of `s` starting at `k`, and everything of `s` before
      and after it is whitespace. */
  predicate KeptBetweenSpace(s: string, r: string, k: int) {
    0 <= k && k + |r| <= |s| && r == s[k..k + |r|] && AllSpace(s[..k]) && AllSpace(s[k + |r|..])
  }

  /** Python's `s.strip()`: the longest infix of `s` that neither starts nor
      ends with whitespace, empty exactly when `s` is all whitespace. Only
      whitespace is removed, and only from the two ends. */
  function Strip(s: string): (r: string)
    ensures |r| <= |s|
    ensures r == [] <==> AllSpace(s)
    ensures r != [] ==> !IsSpace(r[0]) && !IsSpace(r[|r| - 1])
    ensures exists k :: KeptBetweenSpace(s, r, k)
  {
    var t := StripStart(s);
    StripShape(s, t, StripEnd(t));
    StripEnd(t)
  }

  /** Leading whitespace removed to give `t`, then trailing whitespace removed
      from `t` to give `r`: `r` is what `strip` keeps. */
  lemma {:induction false} StripShape(s: string, t: string, r: string)
    requires |t| <= |s| && t == s[|s| - |t|..]
    requires t == [] || !IsSpace(t[0])
    requires forall i :: 0 <= i < |s| - |t| ==> IsSpace(s[i])
    requires |r| <= |t| && r == t[..|r|]
    requires r == [] || !IsSpace(r[|r| - 1])
    requires forall i :: |r| <= i < |t| ==> IsSpace(t[i])
    ensures |r| <= |s|
    ensures r == [] <==> AllSpace(s)
    ensures r != [] ==> !IsSpace(r[0]) && !IsSpace(r[|r| - 1])
    ensures exists k :: KeptBetweenSpace(s, r, k)
  {
    InfixOfSuffix(s, t, r);
    LeadingRun(s, |s| - |t|);
    TrailingOfSuffix(s, t, |r|);
    assert KeptBetweenSpace(s, r, |s| - |t|);
    assert r != [] ==> r[0] == t[0];
    KeptEmptyIff(s, r, |s| - |t|);
  }

  /** What is kept between whitespace is empty exactly when all of `s` is
      whitespace, provided it does not itself start with whitespace. */
  lemma {:induction false} KeptEmptyIff(s: string, r: string, k: int)
    requires KeptBetweenSpace(s, r, k)
    requires r != [] ==> !IsSpace(r[0])
    ensures r == [] <==> AllSpace(s)
  {
    if r == [] {
      assert s == s[..k] + s[k..];
    } else {
      assert r[0] == s[k];
    }
  }

  /** A prefix of a suffix is an infix. */
  lemma {:induction false} InfixOfSuffix(s: string, t: string, r: string)
    requires |t| <= |s| && t == s[|s| - |t|..]
    requires |r| <= |t| && r == t[..|r|]
    ensures r == s[|s| - |t|..|s| - |t| + |r|]
  {
  }

  /** A run of whitespace at the start, as a prefix. */
  lemma {:induction false} LeadingRun(s: string, k: nat)
    requires k <= |s|
    requires forall i :: 0 <= i < k ==> IsSpace(s[i])
    ensures AllSpace(s[..k])
  {
    assert forall i :: 0 <= i < k ==> s[..k][i] == s[i];
  }

  /** Whitespace at the end of a suffix is whitespace at the end of the whole. */
  lemma {:induction false} TrailingOfSuffix(s: string, t: string, n: nat)
    requires |t| <= |s| && t == s[|s| - |t|..] && n <= |t|
    requires forall i :: n <= i < |t| ==> IsSpace(t[i])
    ensures AllSpace(s[|s| - |t| + n..])
  {
    assert s[|s| - |t| + n..] == t[n..];
  }

  /** A string that neither starts nor ends with whitespace is its own strip. */
  lemma UnpaddedStrip(s: string)
    requires |s| > 0 && !IsSpace(s[0]) && !IsSpace(s[|s| - 1])
    ensures Strip(s) == s
  {
  }

  /** Trailing whitespace does not change what `strip` keeps. */
  lemma StripIgnoresTrailingSpace(s: string, pad: string)
    requires AllSpace(pad)
    ensures Strip(s + pad) == Strip(s)
  {
    var t := StripStart(s + pad);
    StripStartPadded(s, pad);
    if AllSpace(s) {
      assert t == [];
      assert Strip(s + pad) == StripEnd(t);
    } else {
      assert t == StripStart(s) + pad;
      StripEndPadded(StripStart(s), pad);
    }
  }

  /** Removing leading whitespace from a padded string. */
  lemma {:induction false} StripStartPadded(s: string, pad: string)
    requires AllSpace(pad)
    ensures StripStart(s + pad) == if AllSpace(s) then [] else StripStart(s) + pad
    decreases |s|
  {
    if |s| == 0 {
      assert s + pad == pad;
      StripStartAllSpace(pad);
    } else if IsSpace(s[0]) {
      assert (s + pad)[1..] == s[1..] + pad;
      StripStartPadded(s[1..], pad);
      assert AllSpace(s) <==> AllSpace(s[1..]) by {
        assert forall i :: 1 <= i < |s| ==> s[i] == s[1..][i - 1];
      }
    } else {
      assert (s + pad)[0] == s[0];
    }
  }

  /** A string of whitespace is stripped to nothing. */
  lemma {:induction false} StripStartAllSpace(s: string)
    requires AllSpace(s)
    ensures StripStart(s) == []
    decreases |s|
  {
    if |s| > 0 {
      assert IsSpace(s[0]);
      assert AllSpace(s[1..]) by {
        assert forall i :: 0 <= i < |s| - 1 ==> s[1..][i] == s[i + 1];
      }
      StripStartAllSpace(s[1..]);
    }
  }

  /** Removing trailing whitespace ignores whitespace padding. */
  lemma {:induction false} StripEndPadded(s: string, pad: string)
    requires AllSpace(pad)
    ensures StripEnd(s + pad) == StripEnd(s)
    decreases |pad|
  {
    if |pad| == 0 {
      assert s + pad == s;
    } else {
      var t := s + pad;
      assert IsSpace(t[|t| - 1]);
      assert t[..|t| - 1] == s + pad[..|pad| - 1];
      assert AllSpace(pad[..|pad| - 1]);
      StripEndPadded(s, pad[..|pad| - 1]);
    }
  }

  /** Python's `s.startswith(prefix)`. */
  predicate StartsWith(s: string, prefix: string) {
    |prefix| <= |s| && s[..|prefix|] == prefix
  }

  /** A string that starts with `p + q` starts with `p`. */
  lemma StartsWithPart(s: string, p: string, q: string)
    requires StartsWith(s, p + q)
    ensures StartsWith(s, p)
  {
    assert s[..|p|] == s[..|p + q|][..|p|];
  }

  /** Python's `s.endswith(suffix)`. */
  predicate EndsWith(s: string, suffix: string) {
    |suffix| <= |s| && s[|s| - |suffix|..] == suffix
  }

  /** Python's substring test `t in s`, scanning start positions left to right. */
  predicate Contains(s: string, t: string)
    decreases |s|
  {
    StartsWith(s, t) || (|s| > 0 && Contains(s[1..], t))
  }

  /** `t` occurs in `s` at position `i`. */
  predicate OccursAt(s: string, t: string, i: int) {
    0 <= i && i + |t| <= |s| && s[i..i + |t|] == t
  }

  /** The left-to-right scan finds `t` exactly when `t` occurs somewhere in `s`. */
  lemma {:induction false} ContainsIffOccurs(s: string, t: string)
    ensures Contains(s, t) <==> exists i :: OccursAt(s, t, i)
    decreases |s|
  {
    if StartsWith(s, t) {
      assert OccursAt(s, t, 0);
    } else if |s| == 0 {
      assert forall i :: !OccursAt(s, t, i);
    } else {
      ContainsIffOccurs(s[1..], t);
      if Contains(s[1..], t) {
        var i :| OccursAt(s[1..], t, i);
        assert s[1..][i..i + |t|] == s[i + 1..i + 1 + |t|];
        assert OccursAt(s, t, i + 1);
      } else {
        forall i | 1 <= i
          ensures OccursAt(s, t, i) <==> OccursAt(s[1..], t, i - 1)
        {
          OccursShift(s, t, i);
        }
        assert !OccursAt(s, t, 0);
      }
    }
  }

  /** An occurrence past the first position is an occurrence in the tail. */
  lemma OccursShift(s: string, t: string, i: int)
    requires |s| > 0 && i >= 1
    ensures OccursAt(s, t, i) <==> OccursAt(s[1..], t, i - 1)
  {
    if i + |t| <= |s| {
      assert s[1..][i - 1..i - 1 + |t|] == s[i..i + |t|];
    }
  }

  /** A concatenation starts with its first part and ends with its second. */
  lemma ConcatEnds(a: string, b: string)
    ensures StartsWith(a + b, a) && EndsWith(a + b, b)
  {
    assert (a + b)[..|a|] == a;
    assert (a + b)[|a + b| - |b|..] == b;
  }

  /** The middle part of a concatenation occurs in it. */
  lemma ContainsInfix(a: string, b: string, c: string)
    ensures Contains(a + b + c, b)
  {
    assert (a + b + c)[|a|..|a| + |b|] == b;
    assert OccursAt(a + b + c, b, |a|);
    ContainsIffOccurs(a + b + c, b);
  }

  /** Concatenation regrouped to the left. */
  lemma ConcatAssoc<T>(a: seq<T>, b: seq<T>, c: seq<T>)
    ensures a + (b + c) == a + b + c
  {
  }

  /** Text around a string keeps every substring of it. */
  lemma ContainsWidened(a: string, s: string, c: string, t: string)
    requires Contains(s, t)
    ensures Contains(a + s + c, t)
  {
    ContainsIffOccurs(s, t);
    var i :| OccursAt(s, t, i);
    assert (a + s + c)[|a| + i..|a| + i + |t|] == s[i..i + |t|];
    assert OccursAt(a + s + c, t, |a| + i);
    ContainsIffOccurs(a + s + c, t);
  }

  /** `middle` between `head` and `tail`: the result starts with the first,
      contains the second and ends with the third. */
  function Framed(head: string, middle: string, tail: string): (r: string)
    ensures StartsWith(r, head) && Contains(r, middle) && EndsWith(r, tail)
    ensures |r| == |head| + |middle| + |tail|
  {
    ConcatEnds(head, middle + tail);
    ConcatEnds(head + middle, tail);
    ContainsInfix(head, middle, tail);
    assert head + middle + tail == head + (middle + tail);
    head + middle + tail
  }

  /** Index of the first occurrence of `c` in `s`. */
  function IndexOf(s: string, c: char): (i: nat)
    requires c in s
    ensures i < |s| && s[i] == c && c !in s[..i]
  {
    if s[0] == c then 0 else 1 + IndexOf(s[1..], c)
  }

  /** Python's `s.split(sep)` for a one-character separator: the pieces between
      separators, including empty ones at either end, at least one piece. */
  function Split(s: string, sep: char): (r: seq<string>)
    ensures |r| >= 1
    ensures forall k :: 0 <= k < |r| ==> sep !in r[k]
    decreases |s|
  {
    if |s| == 0 then [""]
    else
      var rest := Split(s[1..], sep);
      if s[0] == sep then [""] + rest else [[s[0]] + rest[0]] + rest[1..]
  }

  /** Python's `sep.join(parts)` for a one-character separator. */
  function Join(parts: seq<string>, sep: char): string
    decreases |parts|
  {
    if |parts| == 0 then ""
    else if |parts| == 1 then parts[0]
    else parts[0] + [sep] + Join(parts[1..], sep)
  }

  /** Joining the pieces of a split restores the original string. */
  lemma {:induction false} JoinSplit(s: string, sep: char)
    ensures Join(Split(s, sep), sep) == s
    decreases |s|
  {
    if |s| > 0 {
      var rest := Split(s[1..], sep);
      JoinSplit(s[1..], sep);
      if s[0] == sep {
        assert Split(s, sep)[1..] == rest;
      } else {
        var r := Split(s, sep);
        if |rest| == 1 {
          assert r == [[s[0]] + rest[0]];
        } else {
          assert r[1..] == rest[1..];
          assert Join(rest, sep) == rest[0] + [sep] + Join(rest[1..], sep);
        }
      }
    }
  }

  /** A string without the separator is one piece. */
  lemma {:induction false} SplitNoSeparator(s: string, sep: char)
    requires sep !in s
    ensures Split(s, sep) == [s]
    decreases |s|
  {
    if |s| > 0 {
      SplitNoSeparator(s[1..], sep);
      assert [s[0]] + s[1..] == s;
    }
  }

  /** Splitting at an explicit separator splits each side independently. */
  lemma {:induction false} SplitAppend(a: string, b: string, sep: char)
    ensures Split(a + [sep] + b, sep) == Split(a, sep) + Split(b, sep)
    decreases |a|
  {
    var s := a + [sep] + b;
    if |a| == 0 {
      assert s[1..] == b;
    } else {
      assert s[1..] == a[1..] + [sep] + b;
      SplitAppend(a[1..], b, sep);
    }
  }

  /** Splitting a join of separator-free pieces gives the pieces back. */
  lemma {:induction false} SplitJoin(parts: seq<string>, sep: char)
    requires |parts| >= 1
    requires forall k :: 0 <= k < |parts| ==> sep !in parts[k]
    ensures Split(Join(parts, sep), sep) == parts
    decreases |parts|
  {
    SplitNoSeparator(parts[0], sep);
    if |parts| > 1 {
      SplitJoin(parts[1..], sep);
      SplitAppend(parts[0], Join(parts[1..], sep), sep);
      assert parts == [parts[0]] + parts[1..];
    }
  }

  /** Joining two non-empty lists puts exactly one separator between them. */
  lemma {:induction false} JoinAppend(a: seq<string>, b: seq<string>, sep: char)
    requires |a| >= 1 && |b| >= 1
    ensures Join(a + b, sep) == Join(a, sep) + [sep] + Join(b, sep)
    decreases |a|
  {
    if |a| == 1 {
      assert (a + b)[1..] == b;
    } else {
      assert (a + b)[1..] == a[1..] + b;
      JoinAppend(a[1..], b, sep);
    }
  }
}

=== FILE: summarizer.dfy ===
/** The deterministic parts of `gemini_summarize`, `format_summary_response`
    and `generate_citation` (server.py). The Gemini call, `json.loads`, the MD5
    cache key, `urlparse` and the clock are parameters. */
module Summarizer {
  import opened Outcomes
  import opened Strings

  /** Longest input sent to the model, in characters. */
  const MaxInputChars := 30000

  /** Marker appended to a truncated input. */
  const Ellipsis := "..."

  /** Input as sent to the model: unchanged up to 30000 characters, otherwise
      its first 30000 characters followed by `...`. */
  function Truncate(text: string): (r: string)
    ensures |text| <= MaxInputChars ==> r == text
    ensures |text| > MaxInputChars ==>
      |r| == MaxInputChars + |Ellipsis| && r[..MaxInputChars] == text[..MaxInputChars]
      && EndsWith(r, Ellipsis)
  {
    if |text| > MaxInputChars then text[..MaxInputChars] + Ellipsis else text
  }

  /** Truncating an already truncated input changes nothing. */
  lemma TruncateIdempotent(text: string)
    ensures Truncate(Truncate(text)) == Truncate(text)
  {
    if |text| > MaxInputChars {
      assert Truncate(text)[..MaxInputChars] == text[..MaxInputChars];
    }
  }

  /** Characters beyond the first 30000 never reach the model. */
  lemma TruncateIgnoresTail(a: string, b: string)
    requires |a| > MaxInputChars && |b| > MaxInputChars
    requires a[..MaxInputChars] == b[..MaxInputChars]
    ensures Truncate(a) == Truncate(b)
  {
  }

  /** The length directives the prompt knows, keyed `S`, `M`, `L`, `XL`. */
  const LengthInstructions: map<string, string> := map[
    "S" := "Be extremely concise. Maximum 2-3 sentences total. Only the absolute core insight.",
    "M" := "Be concise but complete. 1 short paragraph (4-6 sentences). Cover main points briefly.",
    "L" := "Be thorough. 2-3 paragraphs. Include key details and supporting points.",
    "XL" := "Be comprehensive. 4-5 paragraphs. Include context, details, examples, and nuances."
  ]

  /** The instruction for a length key; an unknown key gets the `M` instruction. */
  function LengthInstruction(length: string): (r: string)
    ensures r in LengthInstructions.Values
    ensures length in LengthInstructions ==> r == LengthInstructions[length]
    ensures length !in LengthInstructions ==> r == LengthInstructions["M"]
  {
    if length in LengthInstructions then LengthInstructions[length] else LengthInstructions["M"]
  }

  /** A key gets the medium instruction exactly when it is `M` or unknown: the
      four known keys have four different instructions. */
  lemma MediumIsTheDefault(length: string)
    ensures LengthInstruction(length) == LengthInstruction("M") <==> length !in {"S", "L", "XL"}
  {
  }

  /** The fixed instructions that open every summarization prompt. */
  const SystemPrompt := "You are a summarization engine. Not a chatbot.\nOutput ONLY in this exact JSON format, no deviations:\n\n{\n  \"heading\": \"[compelling title, max 8 words, captures the essence]\",\n  \"summary\": \"[main summary text with **bold** for key terms]\",\n  \"highlights\": [\"keyword1\", \"keyword2\", \"keyword3\"]\n}\n\nRules:\n- Output ONLY valid JSON, nothing else\n- Use **double asterisks** to bold important terms in the summary\n- highlights array: 3-7 key terms that are most important\n- heading: should be engaging and descriptive, not generic\n- No meta commentary, disclaimers, or source references\n- Compress aggressively without hallucinating\n"

  /** The prompt sent to the model: the fixed instructions, the length
      instruction, then the (truncated) content, which ends the prompt. */
  function SummaryPrompt(instruction: string, content: string): (r: string)
    ensures StartsWith(r, SystemPrompt)
    ensures EndsWith(r, "\n\nContent to summarize:\n" + content)
    ensures Contains(r, "Length instruction: " + instruction)
  {
    PromptLayout(SystemPrompt, instruction, content)
  }

  /** A prompt laid out as `system`, the length instruction, then the content. */
  function PromptLayout(system: string, instruction: string, content: string): (r: string)
    ensures StartsWith(r, system)
    ensures EndsWith(r, "\n\nContent to summarize:\n" + content)
    ensures Contains(r, "Length instruction: " + instruction)
  {
    var r := Framed(system + "\n\n", "Length instruction: " + instruction, "\n\nContent to summarize:\n" + content);
    StartsWithPart(r, system, "\n\n");
    r
  }

  /** The three backticks that open and close a Markdown code block. */
  const Fence := "```"

  /** `re.sub(r'\n?```$', '', s)`: removes a closing fence, and the line break
      before it, at the very end or just before one final line break. */
  function DropTrailingFence(s: string): (r: string)
    ensures |r| <= |s|
    ensures !EndsWith(s, Fence) && !EndsWith(s, Fence + "\n") ==> r == s
  {
    if EndsWith(s, "\n" + Fence) then s[..|s| - 4]
    else if EndsWith(s, Fence) then s[..|s| - 3]
    else if EndsWith(s, "\n" + Fence + "\n") then s[..|s| - 5] + "\n"
    else if EndsWith(s, Fence + "\n") then s[..|s| - 4] + "\n"
    else s
  }

  /** `re.sub(r'^```json?\n?', '', s)` as the server writes it: the pattern
      needs the letters `jso` right after the fence, so a bare fence, or one
      tagged with another language, is not removed. */
  function DropLeadingFenceAsWritten(s: string): (r: string)
    ensures !StartsWith(s, Fence + "jso") ==> r == s
    ensures StartsWith(s, Fence + "jso") ==> |r| <= |s| - 6
  {
    if StartsWith(s, Fence + "jso") then
      var t := s[6..];
      var u := if StartsWith(t, "n") then t[1..] else t;
      if StartsWith(u, "\n") then u[1..] else u
    else s
  }

  /** The code-fence cleanup as the server writes it. */
  function StripFencesAsWritten(raw: string): (r: string)
    ensures !StartsWith(raw, Fence) ==> r == raw
  {
    if StartsWith(raw, Fence) then DropTrailingFence(DropLeadingFenceAsWritten(raw)) else raw
  }

  /** A model answer wrapped in a bare fence keeps its opening fence under the
      cleanup as written, so the JSON inside cannot be parsed. */
  lemma BareFenceSurvivesAsWritten()
    ensures StripFencesAsWritten("```\n{}\n```") == "```\n{}"
  {
    var s := "```\n{}\n```";
    assert s[3] == '\n';
    assert !StartsWith(s, Fence + "jso");
    assert EndsWith(s, "\n" + Fence);
    assert s[..|s| - 4] == "```\n{}";
  }

  /** The leading fence with an optional `json` tag and line break, the
      pattern `^```(json)?\n?`. */
  function DropLeadingFence(s: string): (r: string)
    ensures !StartsWith(s, Fence) ==> r == s
    ensures StartsWith(s, Fence) ==> |r| <= |s| - 3
  {
    if StartsWith(s, Fence) then
      var t := s[3..];
      var u := if StartsWith(t, "json") then t[4..] else t;
      if StartsWith(u, "\n") then u[1..] else u
    else s
  }

  /** The code-fence cleanup: a response that starts with a fence loses its
      opening fence (with an optional `json` tag and line break) and its
      closing fence; any other response is left alone. */
  function StripFences(raw: string): (r: string)
    ensures !StartsWith(raw, Fence) ==> r == raw
    ensures StartsWith(raw, Fence) ==> |r| <= |raw| - 3
  {
    if StartsWith(raw, Fence) then DropTrailingFence(DropLeadingFence(raw)) else raw
  }

  /** A Markdown code block around `body`, tagged with `tag`. */
  function Fenced(tag: string, body: string): string {
    Fence + tag + "\n" + body + "\n" + Fence
  }

  /** Unwrapping a fenced block, bare or tagged `json`, gives back its body exactly. */
  lemma {:induction false} FenceRoundTrip(tag: string, body: string)
    requires tag == "" || tag == "json"
    ensures StripFences(Fenced(tag, body)) == body
  {
    var inner := body + "\n" + Fence;
    assert Fenced(tag, body) == Fence + tag + "\n" + inner;
    LeadingFenceDropped(tag, inner);
    TrailingFenceDropped(body);
  }

  /** The opening fence, its tag and its line break are removed, and nothing more. */
  lemma {:induction false} LeadingFenceDropped(tag: string, rest: string)
    requires tag == "" || tag == "json"
    ensures StartsWith(Fence + tag + "\n" + rest, Fence)
    ensures DropLeadingFence(Fence + tag + "\n" + rest) == rest
  {
    var s := Fence + tag + "\n" + rest;
    assert s[..3] == Fence;
    var t := s[3..];
    assert t == tag + "\n" + rest;
    if tag == "json" {
      assert t[..4] == "json";
      assert t[4..] == "\n" + rest;
    } else {
      assert t == "\n" + rest;
      assert t[0] == '\n';
      assert !StartsWith(t, "json");
    }
  }

  /** The closing fence and the line break before it are removed, and nothing more. */
  lemma {:induction false} TrailingFenceDropped(body: string)
    ensures DropTrailingFence(body + "\n" + Fence) == body
  {
    var s := body + "\n" + Fence;
    assert s[|s| - 4..] == "\n" + Fence;
    assert s[..|s| - 4] == body;
  }

  /** On the fence the model usually emits, tagged `json`, the cleanup as
      written and the corrected one agree. */
  lemma {:induction false} AsWrittenAgreesOnJsonFence(body: string)
    ensures StripFencesAsWritten(Fenced("json", body)) == StripFences(Fenced("json", body))
  {
    var s := Fenced("json", body);
    var inner := body + "\n" + Fence;
    assert s == Fence + "jso" + "n\n" + inner;
    assert StartsWith(s, Fence + "jso");
    assert s[6..] == "n\n" + inner;
    assert s[6..][1..] == "\n" + inner;
    assert DropLeadingFenceAsWritten(s) == inner;
    FenceRoundTrip("json", body);
  }

  /** The JSON object the model returned, as far as the server reads it:
      each of the three keys may be missing. */
  datatype SummaryJson = SummaryJson(
    heading: Option<string>,
    summary: Option<string>,
    highlights: Option<seq<string>>)

  /** What is returned when the model's answer is not valid JSON: the cleaned
      answer itself as the summary. */
  function FallbackSummary(raw: string): SummaryJson {
    SummaryJson(Some("Summary"), Some(raw), Some([]))
  }

  /** Most entries the summary cache ever holds. */
  const CacheCapacity := 100

  /** The cache insertion `if len(cache) < 100: cache[key] = value`: a full
      cache is left as it was, otherwise the key is bound to the value and no
      other entry changes. The size bound is preserved. */
  function CacheStore<K, V>(cache: map<K, V>, key: K, value: V): (r: map<K, V>)
    ensures |cache| <= CacheCapacity ==> |r| <= CacheCapacity
    ensures |cache| < CacheCapacity ==> key in r && r[key] == value
    ensures |cache| >= CacheCapacity ==> r == cache
    ensures r.Keys <= cache.Keys + {key}
    ensures forall k :: k in cache && k != key ==> k in r && r[k] == cache[k]
  {
    if |cache| < CacheCapacity then cache[key := value] else cache
  }

  /** The failure `gemini_summarize` raises when the model call fails. */
  datatype GeminiError = GeminiError

  /** The outcome of one `gemini_summarize` call and the cache after it. */
  datatype SummaryCall<K> = SummaryCall(outcome: Result<SummaryJson, GeminiError>, cache: map<K, SummaryJson>)

  /** `gemini_summarize` once its cache key is computed: a cached key returns
      the stored data; otherwise the model is asked, its answer is stripped and
      cleaned with the fence patterns exactly as the server writes them (so a
      bare code block keeps its opening fence), and parsed data is cached while
      there is room. `generate(instruction, content)` stands for the model's
      answer to `SummaryPrompt(instruction, content)` (`None` when the call
      raises), `parseJson` for `json.loads` (`None` when the answer is not JSON). */
  function SummarizeKeyed<K(==)>(
    cache: map<K, SummaryJson>, key: K, text: string, length: string,
    generate: (string, string) -> Option<string>, parseJson: string -> Option<SummaryJson>)
    : (r: SummaryCall<K>)
    ensures key in cache ==> r == SummaryCall(Ok(cache[key]), cache)
    ensures |cache| <= CacheCapacity ==> |r.cache| <= CacheCapacity
    ensures r.cache.Keys <= cache.Keys + {key}
    ensures forall k :: k in cache ==> k in r.cache && r.cache[k] == cache[k]
    ensures r.outcome.Err? ==> r.cache == cache
    ensures key !in cache ==>
      var answer := generate(LengthInstruction(length), Truncate(text));
      && (answer.None? ==> r.outcome == Err(GeminiError))
      && (answer.Some? && parseJson(StripFencesAsWritten(Strip(answer.value))).None? ==>
            r == SummaryCall(Ok(FallbackSummary(StripFencesAsWritten(Strip(answer.value)))), cache))
      && (answer.Some? && parseJson(StripFencesAsWritten(Strip(answer.value))).Some? ==>
            var data := parseJson(StripFencesAsWritten(Strip(answer.value))).value;
            r == SummaryCall(Ok(data), CacheStore(cache, key, data)))
  {
    if key in cache then SummaryCall(Ok(cache[key]), cache)
    else
      match generate(LengthInstruction(length), Truncate(text))
      case None => SummaryCall(Err(GeminiError), cache)
      case Some(answer) =>
        var raw := StripFencesAsWritten(Strip(answer));
        match parseJson(raw)
        case None => SummaryCall(Ok(FallbackSummary(raw)), cache)
        case Some(data) => SummaryCall(Ok(data), CacheStore(cache, key, data))
  }

  /** `gemini_summarize(text, length)`, with the cache key as the server
      computes it: `cacheKey` stands for the MD5 digest, taken of `text + length`. */
  function GeminiSummarize<K(==)>(
    cache: map<K, SummaryJson>, cacheKey: string -> K, text: string, length: string,
    generate: (string, string) -> Option<string>, parseJson: string -> Option<SummaryJson>)
    : (r: SummaryCall<K>)
    ensures cacheKey(text + length) in cache ==>
      r == SummaryCall(Ok(cache[cacheKey(text + length)]), cache)
    ensures |cache| <= CacheCapacity ==> |r.cache| <= CacheCapacity
    ensures r.cache.Keys <= cache.Keys + {cacheKey(text + length)}
    ensures forall k :: k in cache ==> k in r.cache && r.cache[k] == cache[k]
    ensures r.outcome.Err? ==> r.cache == cache
    ensures cacheKey(text + length) !in cache ==>
      var answer := generate(LengthInstruction(length), Truncate(text));
      && (answer.None? ==> r.outcome == Err(GeminiError))
      && (answer.Some? && parseJson(StripFencesAsWritten(Strip(answer.value))).None? ==>
            r == SummaryCall(Ok(FallbackSummary(StripFencesAsWritten(Strip(answer.value)))), cache))
      && (answer.Some? && parseJson(StripFencesAsWritten(Strip(answer.value))).Some? ==>
            var data := parseJson(StripFencesAsWritten(Strip(answer.value))).value;
            r == SummaryCall(Ok(data), CacheStore(cache, cacheKey(text + length), data)))
  {
    SummarizeKeyed(cache, cacheKey(text + length), text, length, generate, parseJson)
  }

  /** The key as written digests `text + length`, so two requests that split
      the same characters differently share an entry: once the summary of
      text `t + x` at length `l` is cached, text `t` at length `x + l` is served
      that summary, whatever the model would have answered for it (for example
      `x` = `X` and `l` = `L`, so that the second request asks for `XL`). */
  lemma KeyCollisionServesOtherSummary<K>(
    cache: map<K, SummaryJson>, cacheKey: string -> K, t: string, x: string, l: string,
    generate: (string, string) -> Option<string>, generate2: (string, string) -> Option<string>,
    parseJson: string -> Option<SummaryJson>, answer: string, data: SummaryJson)
    requires cacheKey(t + x + l) !in cache && |cache| < CacheCapacity
    requires generate(LengthInstruction(l), Truncate(t + x)) == Some(answer)
    requires parseJson(StripFencesAsWritten(Strip(answer))) == Some(data)
    ensures var first := GeminiSummarize(cache, cacheKey, t + x, l, generate, parseJson);
      && first.outcome == Ok(data)
      && GeminiSummarize(first.cache, cacheKey, t, x + l, generate2, parseJson) == SummaryCall(Ok(data), first.cache)
  {
    var key := cacheKey(t + x + l);
    var first := GeminiSummarize(cache, cacheKey, t + x, l, generate, parseJson);
    assert first == SummaryCall(Ok(data), CacheStore(cache, key, data));
    assert key in first.cache && first.cache[key] == data;
    ConcatAssoc(t, x, l);
  }

  /** A run of `n` ones. */
  function Ones(n: nat): (r: string)
    ensures |r| == n && forall i :: 0 <= i < n ==> r[i] == '1'
  {
    seq(n, _ => '1')
  }

  /** How many ones open `s`. */
  function LeadingOnes(s: string): (n: nat)
    ensures n <= |s| && forall i :: 0 <= i < n ==> s[i] == '1'
    ensures n < |s| ==> s[n] != '1'
    decreases |s|
  {
    if |s| > 0 && s[0] == '1' then 1 + LeadingOnes(s[1..]) else 0
  }

  /** A digest input that keeps text and length apart: the length of `length`
      in unary, a `0`, then `length`, then `text`. */
  function PairedKey(text: string, length: string): (r: string)
    ensures |r| == 2 * |length| + 1 + |text|
  {
    Ones(|length|) + "0" + length + text
  }

  /** Reading a paired key back: `None` for a string no `PairedKey` produces. */
  function UnpairKey(key: string): Option<(string, string)> {
    var n := LeadingOnes(key);
    if 2 * n + 1 <= |key| && key[n] == '0' then Some((key[2 * n + 1..], key[n + 1..2 * n + 1])) else None
  }

  /** The paired key gives back both the text and the length. */
  lemma {:induction false} PairedKeyRoundTrip(text: string, length: string)
    ensures UnpairKey(PairedKey(text, length)) == Some((text, length))
  {
    var key := PairedKey(text, length);
    var n := |length|;
    assert key[n] == '0';
    var m := LeadingOnes(key);
    assert forall i :: 0 <= i < n ==> key[i] == '1';
    assert m == n;
    assert key[n + 1..2 * n + 1] == length;
    assert key[2 * n + 1..] == text;
  }

  /** Distinct requests get distinct paired keys. */
  lemma PairedKeyInjective(t1: string, l1: string, t2: string, l2: string)
    ensures PairedKey(t1, l1) == PairedKey(t2, l2) <==> t1 == t2 && l1 == l2
  {
    PairedKeyRoundTrip(t1, l1);
    PairedKeyRoundTrip(t2, l2);
  }

  /** `gemini_summarize` with the key digest taken of `PairedKey(text, length)`
      instead of `text + length`. */
  function GeminiSummarizePaired<K(==)>(
    cache: map<K, SummaryJson>, cacheKey: string -> K, text: string, length: string,
    generate: (string, string) -> Option<string>, parseJson: string -> Option<SummaryJson>)
    : (r: SummaryCall<K>)
    ensures cacheKey(PairedKey(text, length)) in cache ==>
      r == SummaryCall(Ok(cache[cacheKey(PairedKey(text, length))]), cache)
    ensures forall k :: k in cache ==> k in r.cache && r.cache[k] == cache[k]
    ensures r.cache.Keys <= cache.Keys + {cacheKey(PairedKey(text, length))}
  {
    SummarizeKeyed(cache, cacheKey(PairedKey(text, length)), text, length, generate, parseJson)
  }

  /** With a collision-free digest, the corrected key never serves one request
      the summary of another: after any request, a different request gets
      what it would have got from the cache as it was before. */
  lemma PairedKeysKeepRequestsApart<K>(
    cache: map<K, SummaryJson>, cacheKey: string -> K, t1: string, l1: string, t2: string, l2: string,
    generate: (string, string) -> Option<string>, generate2: (string, string) -> Option<string>,
    parseJson: string -> Option<SummaryJson>)
    requires forall u, v :: cacheKey(u) == cacheKey(v) ==> u == v
    requires t1 != t2 || l1 != l2
    requires cacheKey(PairedKey(t2, l2)) !in cache
    ensures var first := GeminiSummarizePaired(cache, cacheKey, t1, l1, generate, parseJson);
      GeminiSummarizePaired(first.cache, cacheKey, t2, l2, generate2, parseJson).outcome
        == GeminiSummarizePaired(cache, cacheKey, t2, l2, generate2, parseJson).outcome
  {
    PairedKeyInjective(t1, l1, t2, l2);
    var first := GeminiSummarizePaired(cache, cacheKey, t1, l1, generate, parseJson);
    assert cacheKey(PairedKey(t2, l2)) != cacheKey(PairedKey(t1, l1));
    assert cacheKey(PairedKey(t2, l2)) !in first.cache;
  }

  /** A parsed answer is cached (while there is room), so asking again returns
      the same data without consulting the model. */
  lemma RepeatIsServedFromCache<K>(
    cache: map<K, SummaryJson>, cacheKey: string -> K, text: string, length: string,
    generate: (string, string) -> Option<string>, generate2: (string, string) -> Option<string>,
    parseJson: string -> Option<SummaryJson>, answer: string, data: SummaryJson)
    requires cacheKey(text + length) !in cache && |cache| < CacheCapacity
    requires generate(LengthInstruction(length), Truncate(text)) == Some(answer)
    requires parseJson(StripFencesAsWritten(Strip(answer))) == Some(data)
    ensures var first := GeminiSummarize(cache, cacheKey, text, length, generate, parseJson);
      && first.outcome == Ok(data)
      && GeminiSummarize(first.cache, cacheKey, text, length, generate2, parseJson) == first
  {
  }

  /** End to end, the bare code block the fence cleanup misses: its opening
      fence stays, `json.loads` rejects what is left, and that text is returned
      as the summary without being cached. */
  lemma BareFenceFallsBack<K>(
    cache: map<K, SummaryJson>, cacheKey: string -> K, text: string, length: string,
    generate: (string, string) -> Option<string>, parseJson: string -> Option<SummaryJson>)
    requires cacheKey(text + length) !in cache
    requires generate(LengthInstruction(length), Truncate(text)) == Some("```\n{}\n```")
    requires parseJson("```\n{}").None?
    ensures GeminiSummarize(cache, cacheKey, text, length, generate, parseJson)
         == SummaryCall(Ok(FallbackSummary("```\n{}")), cache)
  {
    UnpaddedStrip("```\n{}\n```");
    BareFenceSurvivesAsWritten();
  }

  /** The corrected cleanup, applied after `strip` as the server applies it,
      hands `json.loads` the body of any bare or `json`-tagged block. */
  lemma {:induction false} FencedAnswerUnwrapped(tag: string, body: string)
    requires tag == "" || tag == "json"
    ensures StripFences(Strip(Fenced(tag, body))) == body
  {
    var s := Fenced(tag, body);
    assert s[0] == '`' && s[|s| - 1] == '`';
    UnpaddedStrip(s);
    FenceRoundTrip(tag, body);
  }

  /** Only the prompt built from the truncated input reaches the model: two
      models that answer it alike give the same result. */
  lemma ModelSeesOnlyThePrompt<K>(
    cache: map<K, SummaryJson>, cacheKey: string -> K, text: string, length: string,
    generate1: (string, string) -> Option<string>, generate2: (string, string) -> Option<string>,
    parseJson: string -> Option<SummaryJson>)
    requires generate1(LengthInstruction(length), Truncate(text))
          == generate2(LengthInstruction(length), Truncate(text))
    ensures GeminiSummarize(cache, cacheKey, text, length, generate1, parseJson)
         == GeminiSummarize(cache, cacheKey, text, length, generate2, parseJson)
  {
  }

  /** The API's summary fields. */
  datatype SummaryResponse = SummaryResponse(heading: string, summary: string, highlights: seq<string>)

  /** `format_summary_response`: each field of the model's data, or its
      default (`Summary`, empty summary, no highlights) when missing. */
  function FormatSummaryResponse(data: SummaryJson): (r: SummaryResponse)
    ensures data.heading.Some? ==> r.heading == data.heading.value
    ensures data.heading.None? ==> r.heading == "Summary"
    ensures data.summary.Some? ==> r.summary == data.summary.value
    ensures data.summary.None? ==> r.summary == ""
    ensures data.highlights.Some? ==> r.highlights == data.highlights.value
    ensures data.highlights.None? ==> r.highlights == []
  {
    SummaryResponse(data.heading.GetOr("Summary"), data.summary.GetOr(""), data.highlights.GetOr([]))
  }

  /** A response that is not JSON is shown as is, under the heading `Summary`. */
  lemma FallbackIsShownVerbatim(raw: string)
    ensures FormatSummaryResponse(FallbackSummary(raw)) == SummaryResponse("Summary", raw, [])
  {
  }

  /** Longest stretch of the summary quoted in a citation. */
  const SnippetChars := 50

  /** `s.replace('\n', ' ')`. */
  function NewlinesToSpaces(s: string): (r: string)
    ensures |r| == |s|
    ensures forall i :: 0 <= i < |s| ==> r[i] == (if s[i] == '\n' then ' ' else s[i])
  {
    seq(|s|, i requires 0 <= i < |s| => if s[i] == '\n' then ' ' else s[i])
  }

  /** The citation snippet: the summary's first 50 characters on one line,
      followed by `...`. */
  function CitationSnippet(summary: string): (r: string)
    ensures |r| == (if |summary| < SnippetChars then |summary| else SnippetChars) + |Ellipsis|
    ensures forall i :: 0 <= i < |r| - |Ellipsis| ==>
      r[i] == (if summary[i] == '\n' then ' ' else summary[i])
    ensures '\n' !in r
    ensures EndsWith(r, Ellipsis)
  {
    var flat := NewlinesToSpaces(summary);
    var n := if |flat| < SnippetChars then |flat| else SnippetChars;
    flat[..n] + Ellipsis
  }

  /** `generate_citation`: the quoted snippet, the site's domain, the access
      date, then `Web.`. `domain` stands for `urlparse(url).netloc` and `date`
      for today's date formatted `%d %b. %Y`. */
  function Citation(domain: string, date: string, summary: string): (r: string)
    ensures StartsWith(r, "\"" + CitationSnippet(summary) + "\" ")
    ensures EndsWith(r, ", " + date + ". Web.")
    ensures var head := "\"" + CitationSnippet(summary) + "\" ";
      |r| == |head| + |domain| + |", " + date + ". Web."| && r[|head|..|head| + |domain|] == domain
  {
    var head := "\"" + CitationSnippet(summary) + "\" ";
    var tail := ", " + date + ". Web.";
    var r := head + domain + tail;
    assert r[..|head|] == head;
    assert r[|r| - |tail|..] == tail;
    assert r[|head|..|head| + |domain|] == domain;
    r
  }
}
